=== FILE: README.md ===
# bistimaker search service — a Dafny model

The service answers `/global_search/`, the search over all published
bestiaries (monster compendia) of the bistimaker site. A request carries
these settings:

- a paging window (`shift`, `amount_per_page`);
- a search text;
- a sort type;
- four flags: search by author, hard register (case-sensitive), fuzzy search and reverse order.

The handler works in these steps:

1. It looks the settings' text key up in Redis and serves a slice of a cached result list if there is one.
2. Otherwise it reads the published rows and collapses the whitespace of the search text.
3. It keeps the rows in which some word of the query occurs, exactly or by fuzzy score, optionally ignoring case. A dictionary keyed by name (or by name and author) drops rows whose key repeats.
4. It sorts the rows stably by one of seven rank keys, highest first unless `reverse` is set.
5. It caches the sorted list for 900 seconds under the key of the normalised settings, and returns the requested slice.

The modules follow the source files:

| module | file | what it holds |
|---|---|---|
| `Wrappers` | — | `Option`, `Result` and the Python exceptions the code can raise |
| `Text` | — | Python's `str.split`, `' '.join`, `str.lower`, substring search and `str` ordering |
| `PyInt` | — | Python's `int(str)` and the decimal rendering of an `int` |
| `Models` | app/api/models.py | the row, the two settings classes with their defaults, their `__str__` cache keys, and the library functions as parameters |
| `Ranks`, `StableSort` | — | the values a sort key can return, their order, and Python's stable `list.sort` |
| `SortModels` | app/api/sort_models.py | the seven rank keys |
| `OrderedDict` | — | Python's insertion-ordered `dict` |
| `Matcher` | app/api/api_v1.py | `smart_search` |
| `Index` | app/api/api_v1.py | `get_sorted_data`, as written and corrected |
| `RedisCache` | app/api/including_redis.py | the cache over a map of expiring entries |
| `Search` | app/api/api_v1.py | the sort-type table, `sort_result`, the page slice and `read_bestiary` |
| `KeyCollision` | app/api/models.py, app/api/api_v1.py | two requests whose cache keys collide, and what the second one is served |

The library functions `fuzz.partial_ratio` and `fuzz.ratio` are fields of `Models.Oracles`, and so is `correction_function`, whose real-valued square root is not modelled. The database result is the parameter `rows`. The clock is the parameter `now`.

## Model

| member | source | states |
|---|---|---|
| Models.ParseGlobalKey | app/api/models.py:32-33 | the global key reads back as the rendered search text and sort type joined by `_`, followed by four one-character flags, each `1` exactly when its field is truthy |
| Models.GlobalKey | app/api/models.py:32-33 | `__str__` of the global settings; its contents are stated by Models.ParseGlobalKey and Models.GlobalKeyInjective |
| Models.GlobalKeyInjective | app/api/models.py:33 | two settings with one sort type and one key have the same rendered search text and the same truth value of every flag |
| Models.GlobalKeyIgnoresPaging | app/api/models.py:22-33 | settings that differ only in `shift` and `amount_per_page` share a key |
| Models.DefaultGlobalKey | app/api/models.py:25-30 | with the class defaults (`search_author` `None`, the other flags `False`) the key is `None_None_0_0_0_0`: a `None` flag renders as `0` and a `None` text as `None` |
| Models.NoneSearchSharesKey | app/api/models.py:25-33 | a missing search text and the literal text `None` have the same key |
| Models.MyKeyOfDefaults | app/api/models.py:7-19 | the per-author key of default settings raises `TypeError`, because `int(None)` does |
| Models.MyKey | app/api/models.py:18-19 | `__str__` of the per-author settings; its error and contents are stated by Models.MyKeyOfDefaults, Models.MyKeyOfAuthorText and Models.MyKeyAgreesWithGlobal |
| Models.MyKeyOfAuthorText | app/api/models.py:13-19 | when `search_author` is the decimal text of `n` and the flags are set, the per-author key shows `n` where the global key shows a bit |
| Models.MyKeyAgreesWithGlobal | app/api/models.py:19-33 | when `search_author` is `0` or `1` and the flags are set, the per-author key equals the global key of the same settings |
| PyInt.ParseIntText | app/api/models.py:19 | `int(str(n)) == n` for every integer `n` |
| SortModels.PopularityFollowsRang | app/api/sort_models.py:4-9 | for a correction in `[0, 1)`, a row whose `rang` is at least one higher is strictly more popular |
| SortModels.ByPopularity | app/api/sort_models.py:8-9 | `sort_by_popularity`; its order is stated by SortModels.PopularityFollowsRang and SortModels.PopularityOfEqualViews |
| SortModels.ByLikeness | app/api/sort_models.py:12-13 | `sort_by_likeness`; its order is stated by SortModels.LikenessFollowsSimilarity and SortModels.LikenessOfEqualSimilarity |
| SortModels.ByViews | app/api/sort_models.py:16-17 | `sort_by_views`; its order is stated by SortModels.ColumnOrders |
| SortModels.ByRating | app/api/sort_models.py:20-21 | `sort_by_rating`; its order is stated by SortModels.RatingFollowsAverage and SortModels.RatingOfEqualViews |
| SortModels.ByName | app/api/sort_models.py:24-25 | `sort_by_name`; its order is stated by SortModels.NameIgnoresCase and SortModels.NameOfSameAuthor |
| SortModels.ByPublication | app/api/sort_models.py:28-29 | `sort_by_publication`; its order is stated by SortModels.ColumnOrders |
| SortModels.ByLastUpdate | app/api/sort_models.py:32-33 | `sort_by_last_update`; its order is stated by SortModels.ColumnOrders |
| SortModels.PopularityOfEqualViews | app/api/sort_models.py:8-9 | with equal view counts, the popularity order is the `rang` order |
| SortModels.RatingFollowsAverage | app/api/sort_models.py:4-21 | for a correction in `[0, 1)`, an average rating at least a tenth higher ranks strictly higher |
| SortModels.RatingOfEqualViews | app/api/sort_models.py:20-21 | with equal view counts, the rating order is the `average_rating` order |
| SortModels.LikenessFollowsSimilarity | app/api/sort_models.py:12-13 | a strictly higher `fuzz.ratio` ranks strictly higher unless the popularities differ by 100 or more |
| SortModels.LikenessOfEqualSimilarity | app/api/sort_models.py:12-13 | among names equally similar to the search, likeness orders as popularity does |
| SortModels.ColumnOrders | app/api/sort_models.py:16-33 | the view, publication and last-update keys order rows exactly as the raw columns do |
| SortModels.NameIgnoresCase | app/api/sort_models.py:24-25 | lower-casing a row's username and name does not change its name key |
| SortModels.NameOfSameAuthor | app/api/sort_models.py:24-25 | two rows of one author compare by their lower-cased names |
| Ranks.RankLeTotal | app/api/api_v1.py:100 | any two sort-key values are comparable |
| Ranks.RankLeAntisymmetric | app/api/api_v1.py:100 | values that compare both ways are equal |
| Ranks.RankLeTransitive | app/api/api_v1.py:100 | the order on sort-key values is transitive |
| StableSort.Sort | app/api/api_v1.py:100 | the sort returns a permutation of its input, ordered by key (descending or ascending), keeping rows of equal key in input order |
| StableSort.StableSortUnique | app/api/api_v1.py:100 | any list that is a stably ordered permutation is the result of the sort |
| StableSort.SortCongruence | app/api/api_v1.py:100 | two key functions that agree on every row sort every list alike |
| Text.WordsCoverText | app/api/api_v1.py:57 | the words of `split()`, put together, are exactly the non-whitespace characters of the text, in order |
| Text.Words | app/api/api_v1.py:57 | `str.split()`: every result is a non-empty word without whitespace; Text.WordsStep, with the contracts of `TrimStart` and `WordLength`, cuts the text at every whitespace run, and Text.WordsCoverText and Text.WordsEmptyIffBlank state what the words cover |
| Text.Collapse | app/api/api_v1.py:149 | `' '.join(s.split())`; stated by Text.CollapseKeepsWords and Text.CollapseEmptyIffBlank |
| Text.Lower | app/api/api_v1.py:55-62 | `str.lower`: the length is kept, no capital remains, whitespace stays whitespace, and every other character is kept; Text.LowerIdempotent states that folding twice is folding once |
| Text.WordsEmptyIffBlank | app/api/api_v1.py:57 | `split()` gives no words exactly when the text is empty or all whitespace |
| Text.CollapseKeepsWords | app/api/api_v1.py:149 | collapsing whitespace keeps the words, and collapsing twice is collapsing once |
| Text.CollapseEmptyIffBlank | app/api/api_v1.py:149-152 | the collapsed text is empty exactly when the text is blank |
| Text.LowerIdempotent | app/api/api_v1.py:55-62 | lower-casing twice is lower-casing once |
| Text.ContainsIsSubstring | app/api/api_v1.py:73 | the scan for an escaped pattern succeeds exactly when the word occurs as a block of the key |
| Text.TextLeTotal | app/api/sort_models.py:24-25 | `str` comparison is total |
| Text.TextLeTransitive | app/api/sort_models.py:24-25 | `str` comparison is transitive |
| Text.TextLeCommonPrefix | app/api/sort_models.py:24-25 | a common prefix does not change how two texts compare |
| Matcher.AnyWordMatches | app/api/api_v1.py:67-74 | `any(...)` holds exactly when some query word matches the key |
| Matcher.AnyWordMatchesIffSelected | app/api/api_v1.py:53-74 | the scan keeps a key exactly when some word of the folded query occurs in the folded key, or scores at least 80 in fuzzy mode |
| Matcher.FilterKeys | app/api/api_v1.py:67-76 | the scan keeps, in input order, every key on which some folded query word matches, as often as it occurs, and drops the others |
| Matcher.SmartSearch | app/api/api_v1.py:53-76 | the result is a subsequence of the keys, holding each selected key as often as the input does and no other key |
| Matcher.SmartSearchOfBlankQuery | app/api/api_v1.py:57-73 | a blank query selects nothing |
| Matcher.SelectedIgnoresCase | app/api/api_v1.py:54-64 | without `hard_register`, lower-casing query and key changes nothing |
| Matcher.WordOfQueryInKey | app/api/api_v1.py:73 | in exact mode, a one-word query that occurs in the key selects it |
| OrderedDict.Put | app/api/api_v1.py:85 | assignment replaces a present key's value in place and appends a new key, keeping the keys distinct |
| OrderedDict.GetAfterPut | app/api/api_v1.py:85-88 | after `d[k] = v`, `d[k]` is `v`, other keys keep their values, and the keys are the old keys plus `k` |
| OrderedDict.KeysOfPut | app/api/api_v1.py:85 | assigning a present key keeps the key order; assigning a new key appends it at the end |
| Index.BuildIndex | app/api/api_v1.py:80-85 | `dict_data` holds every key of the data once, in order of first occurrence, under it the last row with that key |
| Index.GetSortedData | app/api/api_v1.py:79-88 | the rows returned are the last row of each selected key, in first-occurrence order; every row whose key is selected is represented |
| Index.GetSortedDataAsWritten | app/api/api_v1.py:79-88 | as written: with `search_author` it raises `TypeError` as soon as there is a row, otherwise it is the corrected function |
| Index.AuthorSearchExample | app/api/api_v1.py:83-84 | searching a single bestiary by its author's name: the code as written fails, the corrected key finds the bestiary |
| Index.AsWrittenAgreesUnlessAuthorKey | app/api/api_v1.py:79-88 | the code as written and the corrected function agree on every input except an author search over at least one row |
| RedisCache.SetEx | app/api/including_redis.py:18-23 | a positive lifetime stores the entry until `now + timer` and leaves every other entry; a non-positive one is an error |
| RedisCache.SetItemCache | app/api/including_redis.py:16-18 | a single row is stored at `key_id` until `now + timer` and every other entry is kept; a non-positive lifetime is an error |
| RedisCache.SetListCache | app/api/including_redis.py:21-23 | a list of rows is stored at `key_id` until `now + timer` and every other entry is kept; a non-positive lifetime is an error |
| RedisCache.SetCache | app/api/including_redis.py:9-23 | the payload is stored at `key_id` until `now + timer` (900 seconds by default) and every other entry is kept; a non-positive lifetime is an error |
| RedisCache.GetCache | app/api/including_redis.py:26-31 | the payload of a live entry at `key_id`, and `None` for a missing or expired one |
| RedisCache.DeleteCache | app/api/including_redis.py:34-35 | removes the entry at `key_id` and nothing else |
| RedisCache.GetAfterSet | app/api/including_redis.py:16-29 | a read after a write of the same key and id, before expiry, returns the payload written |
| RedisCache.DefaultLifetime | app/api/including_redis.py:9-21 | an entry written with the default lifetime is read back 899 seconds later and gone after 900 |
| RedisCache.SetLeavesOthers | app/api/including_redis.py:9-23 | writing one address leaves reads of every other address unchanged |
| RedisCache.GetAfterDelete | app/api/including_redis.py:34-35 | after a delete the entry reads as `None`, and other addresses are unchanged |
| RedisCache.AddressesCollide | app/api/including_redis.py:18-27 | distinct key/id pairs can share an address, since the parts are joined by `_` |
| Search.Dispatch | app/api/api_v1.py:40-50 | `None` selects popularity; a name selects a mode exactly when `all_types_sorting` lists it, and that mode carries the name |
| Search.DispatchOfModeName | app/api/api_v1.py:40-50 | every listed name selects its mode |
| Search.RankReadsOnlySearch | app/api/sort_models.py:8-33 | only the likeness key reads the settings, and only their search text |
| Search.SortIgnoresOtherSettings | app/api/api_v1.py:100 | settings with one search text and one direction sort every list alike |
| Search.SortResult | app/api/api_v1.py:97-101 | `[]` when the list is empty or does not reach past `shift`; `KeyError` for an unknown sort type on a non-empty list that does; otherwise the stable sort by the mode's key, descending unless `reverse` |
| Search.SortResultUnique | app/api/api_v1.py:97-101 | a stably sorted permutation of the input is the result of `sort_result` |
| Search.Page | app/api/api_v1.py:129-158 | the page holds at most `amount_per_page` rows, copied from position `shift` on; it is full when the list is long enough and empty when `shift >= len` |
| Search.PagesTile | app/api/api_v1.py:158 | two consecutive pages together are the page of their combined size |
| Search.NegativeShiftPage | app/api/api_v1.py:158 | a negative shift whose stop bound `shift + amount_per_page` is not negative gives an empty page of a list at least `-shift` and at least `amount_per_page` long, since the start counts from the end and the stop from the start |
| Search.NormalizeSearchEmptyIffBlank | app/api/api_v1.py:148-152 | the normalised search is empty exactly when it is missing or blank |
| Search.NormalizeSearch | app/api/api_v1.py:148-151 | a missing search becomes `''`, a present one has its whitespace collapsed; stated by Search.NormalizeSearchEmptyIffBlank and Text.CollapseKeepsWords |
| Search.Normalized | app/api/api_v1.py:148-151 | only the search text changes, and it is always present; Search.NormalizedIdempotent states that normalising twice is normalising once |
| Search.NormalizedIdempotent | app/api/api_v1.py:148-151 | normalising settings twice is normalising them once |
| Search.Filtered | app/api/api_v1.py:79-88 | an empty search keeps every row; an author search with a search text over at least one row raises `TypeError`; otherwise the rows are those the corrected, username-keyed filter keeps |
| Search.FilteredByUsername | app/api/api_v1.py:79-88 | the corrected filter: it keeps every row for an empty search, is never longer than the rows, and otherwise is Index.GetSortedData, whose contract states which rows it keeps |
| Search.Fresh | app/api/api_v1.py:148-155 | the computed list is never longer than the published rows; without a search text it is the sort of all rows; an author search with a search text over at least one row raises `TypeError`; otherwise it is the sort of the rows the username-keyed filter keeps |
| Search.ReadBestiary | app/api/api_v1.py:127-158 | a non-empty cached list is served sliced, with the cache unchanged; a cached item raises `TypeError`; on a miss an author search with a search text over at least one row raises `TypeError`, other errors of the computation propagate, and otherwise the fresh result is sliced and reads back from the cache under the normalised key |
| Search.StoreAndPage | app/api/api_v1.py:157-158 | the result is written under the normalised key with lifetime 900, and the page is the slice of the result |
| Search.Compute | app/api/api_v1.py:130-158 | errors of the computation propagate; otherwise the page is the slice of the fresh result, the cache gains exactly the entry for the normalised key with lifetime 900, and reading that key back gives the result |
| Search.GlobalKeySeparatesListedSortTypes | app/api/models.py:33 | two settings whose sort types the table lists and whose keys are equal have the same sort type |
| Search.SameKeySameFilter | app/api/api_v1.py:127-153 | a request with a search text whose own key is the key a result was cached under, and whose sort type is the writer's or is listed like the writer's, has the writer's sort type, normalises to the same search text, has the same truth value of `reverse`, `hard_register`, `fuzzy_search` and `search_author`, and filters alike |
| Search.SortResultAgrees | app/api/api_v1.py:97-158 | two sorts of one filtered list with the same search text, sort type and direction give the same page |
| Search.SameKeySamePage | app/api/api_v1.py:127-158 | a request with a search text and a listed sort type that reads the non-empty entry cached for another request over the same published rows gets the page its own fresh computation over those rows would give |
| Search.CacheIsTransparent | app/api/api_v1.py:127-158 | within the lifetime of a cached non-empty result, a request with a search text and a listed sort type that reads it, over the same published rows, gets the page a fresh computation over those rows would give it |
| Search.ReaderOfEntryIsServedIt | app/api/api_v1.py:127-158 | within the lifetime of a cached non-empty result, any request whose key is the key written, whatever its sort type, is served a slice of that result |
| Search.ValidatedCacheIsTransparent | app/api/api_v1.py:127-158 | with the sort type checked before the cache is read, a request with a search text that reads a cached entry is refused with `ValueError` when its sort type is unlisted and is otherwise served, over the same published rows, the page a fresh computation over those rows would give it |
| KeyCollision.KeyCollisionServesOtherResult | app/api/models.py:33 | an empty search sorted `by_views` and a search for `_by` sorted `views` share a key; after the first is cached, the second is served a slice of its result, although computed on its own it raises `KeyError` |
| Search.ExtraSpacesNeverHit | app/api/api_v1.py:127-157 | a search text with extra whitespace is cached under a key other than its own, so it never reads its own entry |
| Search.EndpointDefaultsFacts | app/api/api_v1.py:107-125 | a request with only the paging parameters has the key `_by_likeness_0_0_1_0`, is already normalised, and sorts by likeness |

## Left out

- The database query (app/api/api_v1.py:130-146): its result is the parameter `rows`. `db.py` and the SQL join are not part of this model.
- Logging (`print(results)`, including_ligging.py), FastAPI routing and validation, the help endpoint returning `all_types_sorting`, and `SearchOut`: these are transport only.
- `fuzz.partial_ratio`, `fuzz.ratio` and `correction_function`: these are supplied functions (`Models.Oracles`), not computed. Properties that need `correction_function` to lie in `[0, 1)` take that as a hypothesis (`SortModels.CorrectionInUnitRange`).
- Floating point: `rang`, `average_rating` and the popularity arithmetic are exact reals. Timestamps are integers.
- `str.lower` folds ASCII and the basic Cyrillic capitals (U+0410–U+042F and U+0400–U+040F) only; the full Unicode case tables are not modelled.
- A change to the published rows within the 900-second lifetime of a cache entry: the cache-transparency lemmas compare the served page with a fresh computation over the same `rows`. A bestiary published, changed or deleted after the entry was written is not reflected in the list served from the cache until the entry expires.
- Redis connection and command errors in the cache read (app/api/api_v1.py:127) and the cache write (app/api/api_v1.py:157): the cache is a map, so a read never fails and a write fails only for a non-positive lifetime; in the service such an error propagates as an HTTP 500.
- The Redis encoding `eval(str(...))` is taken as the identity on rows; a cached list is compared as the rows written. Expiry is by whole seconds against the `now` parameter, and `setex` with a non-positive lifetime is Redis's error reply.
- Search.ReadBestiary: a cached single item sliced by the handler is `TypeError` (an unhashable slice), as on Python before 3.12; from Python 3.12 on, a slice is hashable and the same lookup raises `KeyError`.
- The handler runs only through the HTTP endpoint, whose `search` is never `None`; the model still follows lines 148-151 for a missing search text.
- PyInt.ParseInt: accepts ASCII digits only. CPython's `int()` also accepts other Unicode decimal digits, such as Arabic-Indic and full-width ones, which the model rejects with `ValueError`.
- StableSort.Sort: `list.sort` compares keys with `<` only; the model orders keys of different kinds by a fixed kind order instead of raising `TypeError`. Every mode returns keys of one kind, so this case does not arise.

## Findings

| source | as written | input that shows it | evidently intended | confidence | as-written member | corrected member |
|---|---|---|---|---|---|---|
| app/api/api_v1.py:84 | the key is extended with `' ' + line.author`, and `author` is the integer id of the author from the joined `bestiaries` table | `search_author=True`, a non-empty search, one published bestiary named `Dragons` by user `ivan` (author id 7): `' ' + 7` raises `TypeError` | extend the key with the author's `username`, which the query selects for this purpose | not executed | Index.GetSortedDataAsWritten | Index.GetSortedData |
| app/api/models.py:33 | the cache key joins the search text and the sort type with `_`, and `read_bestiary` reads the cache before it checks the sort type | two requests with `shift=0`, `amount_per_page=10`, `search_author=False`, `hard_register=True`, `fuzzy_search=False` and `reverse=False`: first search `''` sorted `by_views`, then search `_by` sorted `views`, over the one published bestiary `a_by` by user `ivan` (author id 7), which the `_by` query selects. Both keys are `_by_views_0_1_0_0`, so the second request is served a page holding the first one's list instead of raising `KeyError` | distinct requests read distinct entries, or an unlisted sort type is refused before the cache is read | not executed | KeyCollision.KeyCollisionServesOtherResult | Search.ValidatedCacheIsTransparent |

The handler (`Search.Filtered`, `Search.Fresh`, `Search.ReadBestiary`) follows the code as written, so an author search with a search text over any row raises `TypeError`. The corrected filter is `Search.FilteredByUsername`, and the contracts of `Search.Fresh` state when the two agree. `Search.ReadBestiaryValidated` is the handler with the sort type checked before the cache is read.

=== FILE: index.dfy ===
/** `get_sorted_data` of app/api/api_v1.py: files every row in a dictionary
    under a text key (its name, optionally followed by its author), runs
    `smart_search` over the dictionary's keys and returns the rows filed under
    the selected keys. A later row with the same key replaces an earlier one. */
module Index {
  import opened Wrappers
  import opened Models
  import opened OrderedDict
  import opened Text
  import opened Matcher

  /** The key a row is filed under: its name, followed by a space and the
      author's username when `search_author` is set. */
  function RowKey(line: Row, searchAuthor: bool): string {
    if searchAuthor then line.name + " " + line.username else line.name
  }

  function RowKeys(data: seq<Row>, searchAuthor: bool): (ks: seq<string>)
    ensures |ks| == |data|
    ensures forall i :: 0 <= i < |data| ==> ks[i] == RowKey(data[i], searchAuthor)
  {
    if data == [] then [] else RowKeys(data[..|data| - 1], searchAuthor) + [RowKey(data[|data| - 1], searchAuthor)]
  }

  function FirstIndex(ks: seq<string>, k: string): (i: nat)
    requires k in ks
    ensures i < |ks| && ks[i] == k
    ensures forall j :: 0 <= j < i ==> ks[j] != k
  {
    if ks[0] == k then 0 else 1 + FirstIndex(ks[1..], k)
  }

  function LastIndex(ks: seq<string>, k: string): (i: nat)
    requires k in ks
    ensures i < |ks| && ks[i] == k
    ensures forall j :: i < j < |ks| ==> ks[j] != k
  {
    var n := |ks| - 1;
    if ks[n] == k then n else LastIndex(ks[..n], k)
  }

  /** `x` first occurs in `ks` before `y` does. */
  ghost predicate Before(ks: seq<string>, x: string, y: string) {
    x in ks && y in ks && FirstIndex(ks, x) < FirstIndex(ks, y)
  }

  /** `row` is the last row of `data` filed under its key. */
  ghost predicate LastOfItsKey(row: Row, data: seq<Row>, searchAuthor: bool) {
    var ks := RowKeys(data, searchAuthor);
    var k := RowKey(row, searchAuthor);
    k in ks && row == data[LastIndex(ks, k)]
  }

  /** `d` is `dict_data` after the loop over `data`: every key of `data`
      once, in the order of its first occurrence, holding the last row filed
      under it. */
  ghost predicate IsIndexOf(d: Dict<string, Row>, data: seq<Row>, searchAuthor: bool) {
    var ks := RowKeys(data, searchAuthor);
    && Distinct(Keys(d))
    && |d| <= |data|
    && (forall k :: k in Keys(d) <==> k in ks)
    && (forall p, q :: 0 <= p < q < |d| ==> Before(ks, d[p].0, d[q].0))
    && (forall p :: 0 <= p < |d| ==> d[p].0 == RowKey(d[p].1, searchAuthor) && LastOfItsKey(d[p].1, data, searchAuthor))
  }

  lemma FirstIndexOfSnoc(ks: seq<string>, x: string, k: string)
    requires k in ks
    ensures k in ks + [x] && FirstIndex(ks + [x], k) == FirstIndex(ks, k)
  {
    var i := FirstIndex(ks + [x], k);
    var j := FirstIndex(ks, k);
    assert (ks + [x])[j] == k;
  }

  lemma LastIndexOfSnoc(ks: seq<string>, x: string, k: string)
    requires k in ks + [x]
    ensures LastIndex(ks + [x], k) == if k == x then |ks| else LastIndex(ks, k)
  {
    var n := |ks|;
    assert (ks + [x])[n] == x;
    if k != x {
      assert k in ks by {
        var i := LastIndex(ks + [x], k);
        assert ks[i] == k;
      }
      var i := LastIndex(ks + [x], k);
      var j := LastIndex(ks, k);
      assert (ks + [x])[j] == k;
    }
  }

  lemma RowKeysOfPrefix(data: seq<Row>, searchAuthor: bool)
    requires data != []
    ensures RowKeys(data, searchAuthor)
         == RowKeys(data[..|data| - 1], searchAuthor) + [RowKey(data[|data| - 1], searchAuthor)]
  {
  }

  /** The positions of the keys after one more key `x` is appended. */
  lemma SnocIndices(ks0: seq<string>, x: string)
    ensures forall k :: k in ks0 ==> k in ks0 + [x] && FirstIndex(ks0 + [x], k) == FirstIndex(ks0, k)
    ensures x !in ks0 ==> FirstIndex(ks0 + [x], x) == |ks0|
    ensures forall k :: k in ks0 + [x] ==> LastIndex(ks0 + [x], k) == if k == x then |ks0| else LastIndex(ks0, k)
  {
    forall k | k in ks0
      ensures k in ks0 + [x] && FirstIndex(ks0 + [x], k) == FirstIndex(ks0, k)
    {
      FirstIndexOfSnoc(ks0, x, k);
    }
    forall k | k in ks0 + [x]
      ensures LastIndex(ks0 + [x], k) == if k == x then |ks0| else LastIndex(ks0, k)
    {
      LastIndexOfSnoc(ks0, x, k);
    }
    if x !in ks0 {
      assert (ks0 + [x])[|ks0|] == x;
    }
  }

  /** Assigning key `x` to a dictionary whose keys are those of `ks0`
      leaves it with the keys of `ks0 + [x]`. */
  lemma PutKeys(prev: Dict<string, Row>, ks0: seq<string>, x: string, v: Row)
    requires Distinct(Keys(prev))
    requires forall k :: k in Keys(prev) <==> k in ks0
    ensures forall k :: k in Keys(Put(prev, x, v)) <==> k in ks0 + [x]
    ensures |Put(prev, x, v)| <= |prev| + 1
  {
    KeysOfPut(prev, x, v);
  }

  lemma BeforeOfSnoc(ks0: seq<string>, x: string, a: string, b: string)
    requires Before(ks0, a, b)
    ensures Before(ks0 + [x], a, b)
  {
    FirstIndexOfSnoc(ks0, x, a);
    FirstIndexOfSnoc(ks0, x, b);
  }

  lemma BeforeNewKey(ks0: seq<string>, x: string, a: string)
    requires a in ks0 && x !in ks0
    ensures Before(ks0 + [x], a, x)
  {
    FirstIndexOfSnoc(ks0, x, a);
    SnocIndices(ks0, x);
  }

  /** A dictionary with the keys of `prev` at the same places keeps them in
      order of first occurrence in `ks0 + [x]`. */
  lemma SameKeysOrder(prev: Dict<string, Row>, r: Dict<string, Row>, ks0: seq<string>, x: string)
    requires Keys(r) == Keys(prev)
    requires forall p, q :: 0 <= p < q < |prev| ==> Before(ks0, prev[p].0, prev[q].0)
    ensures forall p, q :: 0 <= p < q < |r| ==> Before(ks0 + [x], r[p].0, r[q].0)
  {
    forall p, q | 0 <= p < q < |r|
      ensures Before(ks0 + [x], r[p].0, r[q].0)
    {
      assert r[p].0 == Keys(r)[p] == prev[p].0;
      assert r[q].0 == Keys(r)[q] == prev[q].0;
      BeforeOfSnoc(ks0, x, prev[p].0, prev[q].0);
    }
  }

  /** Assigning a present key `x` keeps the keys in order of first
      occurrence in `ks0 + [x]`. */
  lemma PutOrderPresent(prev: Dict<string, Row>, ks0: seq<string>, x: string, v: Row)
    requires Distinct(Keys(prev)) && x in Keys(prev)
    requires forall p, q :: 0 <= p < q < |prev| ==> Before(ks0, prev[p].0, prev[q].0)
    ensures forall p, q :: 0 <= p < q < |Put(prev, x, v)| ==> Before(ks0 + [x], Put(prev, x, v)[p].0, Put(prev, x, v)[q].0)
  {
    KeysOfPut(prev, x, v);
    SameKeysOrder(prev, Put(prev, x, v), ks0, x);
  }

  /** Assigning a new key `x` appends it after every key of `ks0`. */
  lemma PutOrderNew(prev: Dict<string, Row>, ks0: seq<string>, x: string, v: Row)
    requires x !in ks0
    requires forall p :: 0 <= p < |prev| ==> prev[p].0 in ks0
    requires forall p, q :: 0 <= p < q < |prev| ==> Before(ks0, prev[p].0, prev[q].0)
    ensures forall p, q :: 0 <= p < q < |prev| + 1 ==> Before(ks0 + [x], (prev + [(x, v)])[p].0, (prev + [(x, v)])[q].0)
  {
    var r := prev + [(x, v)];
    forall p, q | 0 <= p < q < |r|
      ensures Before(ks0 + [x], r[p].0, r[q].0)
    {
      assert r[p] == prev[p];
      if q < |prev| {
        assert r[q] == prev[q];
        BeforeOfSnoc(ks0, x, prev[p].0, prev[q].0);
      } else {
        assert r[q].0 == x;
        BeforeNewKey(ks0, x, prev[p].0);
      }
    }
  }

  /** Assigning key `x` keeps the keys in order of first occurrence in
      `ks0 + [x]`. */
  lemma PutOrder(prev: Dict<string, Row>, ks0: seq<string>, x: string, v: Row)
    requires Distinct(Keys(prev))
    requires forall k :: k in Keys(prev) <==> k in ks0
    requires forall p, q :: 0 <= p < q < |prev| ==> Before(ks0, prev[p].0, prev[q].0)
    ensures forall p, q :: 0 <= p < q < |Put(prev, x, v)| ==> Before(ks0 + [x], Put(prev, x, v)[p].0, Put(prev, x, v)[q].0)
  {
    if x in Keys(prev) {
      PutOrderPresent(prev, ks0, x, v);
    } else {
      assert forall p :: 0 <= p < |prev| ==> Keys(prev)[p] == prev[p].0;
      PutOrderNew(prev, ks0, x, v);
    }
  }

  /** Filing the last row of `data` keeps the keys distinct and makes them
      the keys of `data`, in order of first occurrence. */
  lemma IndexStepKeys(data: seq<Row>, searchAuthor: bool, prev: Dict<string, Row>)
    requires data != []
    requires IsIndexOf(prev, data[..|data| - 1], searchAuthor)
    ensures var r := Put(prev, RowKey(data[|data| - 1], searchAuthor), data[|data| - 1]);
            && Distinct(Keys(r))
            && |r| <= |data|
            && (forall k :: k in Keys(r) <==> k in RowKeys(data, searchAuthor))
            && forall p, q :: 0 <= p < q < |r| ==> Before(RowKeys(data, searchAuthor), r[p].0, r[q].0)
  {
    var n := |data| - 1;
    var x := RowKey(data[n], searchAuthor);
    var ks0 := RowKeys(data[..n], searchAuthor);
    RowKeysOfPrefix(data, searchAuthor);
    PutKeys(prev, ks0, x, data[n]);
    PutOrder(prev, ks0, x, data[n]);
  }

  /** A row that was the last of its key stays so when a row with another
      key is appended. */
  lemma LastOfItsKeyOfSnoc(row: Row, data: seq<Row>, searchAuthor: bool)
    requires data != []
    requires LastOfItsKey(row, data[..|data| - 1], searchAuthor)
    requires RowKey(row, searchAuthor) != RowKey(data[|data| - 1], searchAuthor)
    ensures LastOfItsKey(row, data, searchAuthor)
  {
    var n := |data| - 1;
    RowKeysOfPrefix(data, searchAuthor);
    LastIndexOfSnoc(RowKeys(data[..n], searchAuthor), RowKey(data[n], searchAuthor), RowKey(row, searchAuthor));
  }

  /** The appended row is the last of its key. */
  lemma LastRowIsLastOfItsKey(data: seq<Row>, searchAuthor: bool)
    requires data != []
    ensures LastOfItsKey(data[|data| - 1], data, searchAuthor)
  {
    var n := |data| - 1;
    RowKeysOfPrefix(data, searchAuthor);
    assert RowKeys(data, searchAuthor)[n] == RowKey(data[n], searchAuthor);
    LastIndexOfSnoc(RowKeys(data[..n], searchAuthor), RowKey(data[n], searchAuthor), RowKey(data[n], searchAuthor));
  }

  /** Filing the last row of `data` leaves every key holding the last row
      filed under it. */
  lemma IndexStepValues(data: seq<Row>, searchAuthor: bool, prev: Dict<string, Row>)
    requires data != []
    requires Distinct(Keys(prev))
    requires forall p :: 0 <= p < |prev| ==>
               prev[p].0 == RowKey(prev[p].1, searchAuthor) && LastOfItsKey(prev[p].1, data[..|data| - 1], searchAuthor)
    ensures var r := Put(prev, RowKey(data[|data| - 1], searchAuthor), data[|data| - 1]);
            forall p :: 0 <= p < |r| ==>
              r[p].0 == RowKey(r[p].1, searchAuthor) && LastOfItsKey(r[p].1, data, searchAuthor)
  {
    var n := |data| - 1;
    var line := data[n];
    var x := RowKey(line, searchAuthor);
    var r := Put(prev, x, line);
    LastRowIsLastOfItsKey(data, searchAuthor);
    forall p | 0 <= p < |r|
      ensures r[p].0 == RowKey(r[p].1, searchAuthor) && LastOfItsKey(r[p].1, data, searchAuthor)
    {
      if p < |prev| && prev[p].0 != x {
        assert r[p] == prev[p];
        LastOfItsKeyOfSnoc(prev[p].1, data, searchAuthor);
      } else {
        assert r[p] == (x, line);
      }
    }
  }

  /** Filing the last row of `data` into the index of the rows before it
      gives the index of `data`. */
  lemma IndexStep(data: seq<Row>, searchAuthor: bool, prev: Dict<string, Row>)
    requires data != []
    requires IsIndexOf(prev, data[..|data| - 1], searchAuthor)
    ensures IsIndexOf(Put(prev, RowKey(data[|data| - 1], searchAuthor), data[|data| - 1]), data, searchAuthor)
  {
    IndexStepKeys(data, searchAuthor, prev);
    IndexStepValues(data, searchAuthor, prev);
  }

  /** The loop of `get_sorted_data` that fills `dict_data`. */
  function BuildIndex(data: seq<Row>, searchAuthor: bool): (d: Dict<string, Row>)
    ensures IsIndexOf(d, data, searchAuthor)
  {
    if data == [] then
      []
    else
      var n := |data| - 1;
      var prev := BuildIndex(data[..n], searchAuthor);
      IndexStep(data, searchAuthor, prev);
      Put(prev, RowKey(data[n], searchAuthor), data[n])
  }

  /** `[dict_data[key] for key in matches]`. */
  function LookupAll(d: Dict<string, Row>, ms: seq<string>): (r: seq<Row>)
    requires forall m :: m in ms ==> m in Keys(d)
    ensures |r| == |ms|
    ensures forall i :: 0 <= i < |ms| ==> r[i] == Get(d, ms[i])
  {
    if ms == [] then [] else [Get(d, ms[0])] + LookupAll(d, ms[1..])
  }

  lemma {:induction false} SubsequenceMember<T>(a: seq<T>, b: seq<T>, x: T)
    requires IsSubsequence(a, b) && x in a
    ensures x in b
    decreases |b|
  {
    if a[0] == b[0] {
      if x != a[0] {
        assert x in a[1..];
        SubsequenceMember(a[1..], b[1..], x);
      }
    } else {
      SubsequenceMember(a, b[1..], x);
    }
  }

  lemma {:induction false} SubsequenceLength<T>(a: seq<T>, b: seq<T>)
    requires IsSubsequence(a, b)
    ensures |a| <= |b|
    decreases |b|
  {
    if a != [] {
      if a[0] == b[0] {
        SubsequenceLength(a[1..], b[1..]);
      } else {
        SubsequenceLength(a, b[1..]);
      }
    }
  }

  /** Leaving elements out keeps the order of the rest. */
  lemma {:induction false} SubsequenceKeepsBefore(a: seq<string>, b: seq<string>, ks: seq<string>)
    requires IsSubsequence(a, b)
    requires forall p, q :: 0 <= p < q < |b| ==> Before(ks, b[p], b[q])
    ensures forall p, q :: 0 <= p < q < |a| ==> Before(ks, a[p], a[q])
    decreases |b|
  {
    if a != [] {
      if a[0] == b[0] {
        SubsequenceKeepsBefore(a[1..], b[1..], ks);
        forall p, q | 0 <= p < q < |a|
          ensures Before(ks, a[p], a[q])
        {
          if p == 0 {
            assert a[q] in a[1..];
            SubsequenceMember(a[1..], b[1..], a[q]);
            var t :| 0 <= t < |b[1..]| && b[1..][t] == a[q];
            assert b[t + 1] == a[q];
          } else {
            assert a[p] == a[1..][p - 1] && a[q] == a[1..][q - 1];
          }
        }
      } else {
        SubsequenceKeepsBefore(a, b[1..], ks);
      }
    }
  }

  /** Looking a key up in the index gives the last row filed under it. */
  lemma GetFromIndex(d: Dict<string, Row>, data: seq<Row>, searchAuthor: bool, k: string)
    requires IsIndexOf(d, data, searchAuthor) && k in Keys(d)
    ensures RowKey(Get(d, k), searchAuthor) == k
    ensures LastOfItsKey(Get(d, k), data, searchAuthor)
  {
    var p := IndexOf(d, k);
    assert Get(d, k) == d[p].1;
  }

  /** The rows found under the matched keys. */
  lemma LookupAllFacts(d: Dict<string, Row>, data: seq<Row>, searchAuthor: bool, ms: seq<string>)
    requires IsIndexOf(d, data, searchAuthor)
    requires forall m :: m in ms ==> m in Keys(d)
    ensures forall i :: 0 <= i < |ms| ==>
              RowKey(LookupAll(d, ms)[i], searchAuthor) == ms[i] && LastOfItsKey(LookupAll(d, ms)[i], data, searchAuthor)
  {
    var r := LookupAll(d, ms);
    forall i | 0 <= i < |ms|
      ensures RowKey(r[i], searchAuthor) == ms[i] && LastOfItsKey(r[i], data, searchAuthor)
    {
      GetFromIndex(d, data, searchAuthor, ms[i]);
    }
  }

  /** Every row of `data` whose key is selected has its key among the
      selected keys of the index. */
  lemma MatchedKeysComplete(d: Dict<string, Row>, data: seq<Row>, searchAuthor: bool, query: string,
                            hardRegister: bool, fuzzy: bool, partialRatio: (string, string) -> int)
    requires IsIndexOf(d, data, searchAuthor)
    ensures var ms := SmartSearch(query, Keys(d), hardRegister, fuzzy, partialRatio);
            forall j :: 0 <= j < |data| && Selected(query, RowKey(data[j], searchAuthor), hardRegister, fuzzy, partialRatio)
              ==> RowKey(data[j], searchAuthor) in ms
  {
    var ms := SmartSearch(query, Keys(d), hardRegister, fuzzy, partialRatio);
    forall j | 0 <= j < |data| && Selected(query, RowKey(data[j], searchAuthor), hardRegister, fuzzy, partialRatio)
      ensures RowKey(data[j], searchAuthor) in ms
    {
      var k := RowKey(data[j], searchAuthor);
      assert RowKeys(data, searchAuthor)[j] == k;
      assert k in Keys(d);
      assert multiset(ms)[k] == multiset(Keys(d))[k];
    }
  }

  /** The keys of `data` that `smart_search` selects, in index order. */
  function MatchedKeys(query: string, data: seq<Row>, hardRegister: bool, searchAuthor: bool, fuzzy: bool,
                       partialRatio: (string, string) -> int): (ms: seq<string>)
    ensures forall m :: m in ms ==> m in Keys(BuildIndex(data, searchAuthor))
    ensures |ms| <= |data|
  {
    var d := BuildIndex(data, searchAuthor);
    var ms := SmartSearch(query, Keys(d), hardRegister, fuzzy, partialRatio);
    forall m | m in ms
      ensures m in Keys(d)
    {
      SubsequenceMember(ms, Keys(d), m);
    }
    SubsequenceLength(ms, Keys(d));
    ms
  }

  lemma MatchedKeysSelected(query: string, data: seq<Row>, hardRegister: bool, searchAuthor: bool, fuzzy: bool,
                            partialRatio: (string, string) -> int)
    ensures var ms := MatchedKeys(query, data, hardRegister, searchAuthor, fuzzy, partialRatio);
            forall i :: 0 <= i < |ms| ==> Selected(query, ms[i], hardRegister, fuzzy, partialRatio)
  {
    var ms := MatchedKeys(query, data, hardRegister, searchAuthor, fuzzy, partialRatio);
    assert forall i :: 0 <= i < |ms| ==> multiset(ms)[ms[i]] > 0;
  }

  lemma MatchedKeysOrdered(query: string, data: seq<Row>, hardRegister: bool, searchAuthor: bool, fuzzy: bool,
                           partialRatio: (string, string) -> int)
    ensures var ms := MatchedKeys(query, data, hardRegister, searchAuthor, fuzzy, partialRatio);
            forall i, j :: 0 <= i < j < |ms| ==> Before(RowKeys(data, searchAuthor), ms[i], ms[j])
  {
    var d := BuildIndex(data, searchAuthor);
    var ms := MatchedKeys(query, data, hardRegister, searchAuthor, fuzzy, partialRatio);
    SubsequenceKeepsBefore(ms, Keys(d), RowKeys(data, searchAuthor));
  }

  /** `get_sorted_data(query, data, hard_register, search_author,
      fuzzy_search)`, with the author part of the key taken from the
      author's username. It returns, in order of first occurrence of their
      keys, the last row filed under each selected key, and nothing else. */
  function GetSortedData(query: string, data: seq<Row>, hardRegister: bool, searchAuthor: bool, fuzzy: bool,
                         partialRatio: (string, string) -> int): (r: seq<Row>)
    ensures |r| <= |data|
    ensures forall i :: 0 <= i < |r| ==> LastOfItsKey(r[i], data, searchAuthor)
    ensures forall i :: 0 <= i < |r| ==> Selected(query, RowKey(r[i], searchAuthor), hardRegister, fuzzy, partialRatio)
    ensures forall i, j :: 0 <= i < j < |r| ==>
              Before(RowKeys(data, searchAuthor), RowKey(r[i], searchAuthor), RowKey(r[j], searchAuthor))
    ensures forall j :: 0 <= j < |data| && Selected(query, RowKey(data[j], searchAuthor), hardRegister, fuzzy, partialRatio)
              ==> exists i :: 0 <= i < |r| && RowKey(r[i], searchAuthor) == RowKey(data[j], searchAuthor)
  {
    var d := BuildIndex(data, searchAuthor);
    var ms := MatchedKeys(query, data, hardRegister, searchAuthor, fuzzy, partialRatio);
    var r := LookupAll(d, ms);
    LookupAllFacts(d, data, searchAuthor, ms);
    MatchedKeysSelected(query, data, hardRegister, searchAuthor, fuzzy, partialRatio);
    MatchedKeysOrdered(query, data, hardRegister, searchAuthor, fuzzy, partialRatio);
    MatchedKeysComplete(d, data, searchAuthor, query, hardRegister, fuzzy, partialRatio);
    r
  }

  // ---------------------------------------------------------------------------
  // The key as app/api/api_v1.py:84 builds it

  /** `key = line.name` followed by `key += ' ' + line.author` when
      `search_author` is set. `author` is the integer id of the author, and
      `' ' + int` raises `TypeError`. */
  function RowKeyAsWritten(line: Row, searchAuthor: bool): Result<string> {
    if searchAuthor then Err(TypeError) else Ok(line.name)
  }

  /** The loop that fills `dict_data`, with the key as written. */
  function BuildIndexAsWritten(data: seq<Row>, searchAuthor: bool): (r: Result<Dict<string, Row>>)
    ensures !searchAuthor ==> r == Ok(BuildIndex(data, false))
    ensures searchAuthor && data != [] ==> r == Err(TypeError)
    ensures searchAuthor && data == [] ==> r == Ok([])
  {
    if data == [] then
      Ok([])
    else
      var n := |data| - 1;
      var prev :- BuildIndexAsWritten(data[..n], searchAuthor);
      var k :- RowKeyAsWritten(data[n], searchAuthor);
      Ok(Put(prev, k, data[n]))
  }

  /** `get_sorted_data` as written: with `search_author` set it raises
      `TypeError` on the first row; otherwise it is `GetSortedData`. */
  function GetSortedDataAsWritten(query: string, data: seq<Row>, hardRegister: bool, searchAuthor: bool,
                                  fuzzy: bool, partialRatio: (string, string) -> int): (r: Result<seq<Row>>)
    ensures !searchAuthor ==> r == Ok(GetSortedData(query, data, hardRegister, false, fuzzy, partialRatio))
    ensures searchAuthor && data != [] ==> r == Err(TypeError)
    ensures searchAuthor && data == [] ==> r == Ok([])
  {
    var d :- BuildIndexAsWritten(data, searchAuthor);
    var ms := SmartSearch(query, Keys(d), hardRegister, fuzzy, partialRatio);
    forall m | m in ms
      ensures m in Keys(d)
    {
      SubsequenceMember(ms, Keys(d), m);
    }
    Ok(LookupAll(d, ms))
  }

  /** Unless the author search meets a row, the code as written and the
      corrected function agree. */
  lemma AsWrittenAgreesUnlessAuthorKey(query: string, data: seq<Row>, hardRegister: bool, searchAuthor: bool,
                                       fuzzy: bool, partialRatio: (string, string) -> int)
    ensures !(searchAuthor && data != []) ==>
              GetSortedDataAsWritten(query, data, hardRegister, searchAuthor, fuzzy, partialRatio)
              == Ok(GetSortedData(query, data, hardRegister, searchAuthor, fuzzy, partialRatio))
  {
    if searchAuthor && data == [] {
      assert |GetSortedData(query, data, hardRegister, searchAuthor, fuzzy, partialRatio)| == 0;
    }
  }

  /** A single row whose key is selected is found. */
  lemma SingleSelectedRowFound(query: string, row: Row, hardRegister: bool, searchAuthor: bool, fuzzy: bool,
                               partialRatio: (string, string) -> int)
    requires Selected(query, RowKey(row, searchAuthor), hardRegister, fuzzy, partialRatio)
    ensures GetSortedData(query, [row], hardRegister, searchAuthor, fuzzy, partialRatio) == [row]
  {
    var r := GetSortedData(query, [row], hardRegister, searchAuthor, fuzzy, partialRatio);
    assert [row][0] == row;
    assert |r| == 1;
    assert LastOfItsKey(r[0], [row], searchAuthor);
  }

  /** One published bestiary, searched for by its author's name: the code as
      written fails, the corrected key finds the bestiary. */
  lemma AuthorSearchExample(partialRatio: (string, string) -> int)
    ensures var row := Row(1, "Dragons", 7, "ivan", 0, 0, false, 0.0, 0, 0.0, "", "");
            && GetSortedDataAsWritten("ivan", [row], true, true, false, partialRatio) == Err(TypeError)
            && GetSortedData("ivan", [row], true, true, false, partialRatio) == [row]
  {
    var row := Row(1, "Dragons", 7, "ivan", 0, 0, false, 0.0, 0, 0.0, "", "");
    var key := RowKey(row, true);
    assert key == "Dragons ivan";
    assert key[8..12] == "ivan";
    assert OccursAt("ivan", key, 8);
    WordOfQueryInKey("ivan", key, true, partialRatio);
    SingleSelectedRowFound("ivan", row, true, true, false, partialRatio);
  }
}

=== FILE: key_collision.dfy ===
/** A demonstration that the cache key of app/api/models.py does not
    separate the search text from the sort type, so that `read_bestiary` can
    serve one request the result cached for another. */
module KeyCollision {
  import opened Wrappers
  import opened Text
  import opened Models
  import opened Matcher
  import opened Index
  import opened RedisCache
  import opened Search

  /** Two requests whose keys collide: an empty search sorted by
      `by_views`, and a search for `_by` sorted by the unlisted type `views`,
      both case-sensitive, exact and not by author; and a row that the second
      one selects. */
  const CollisionWriter: GlobalSettings :=
    GlobalSettings(0, 10, Some(""), Some("by_views"), Some(false), Some(true), Some(false), Some(false))
  const CollisionReader: GlobalSettings :=
    GlobalSettings(0, 10, Some("_by"), Some("views"), Some(false), Some(true), Some(false), Some(false))
  const CollisionRow: Row := Row(1, "a_by", 7, "ivan", 0, 0, false, 0.0, 0, 0.0, "", "")

  /** The key of settings with only the exactness flag set. */
  lemma KeyOfExactSearch(s: GlobalSettings)
    requires s.searchAuthor == Some(false) && s.hardRegister == Some(true)
    requires s.fuzzySearch == Some(false) && s.reverse == Some(false)
    ensures GlobalKey(s) == Show(s.search) + "_" + Show(s.sortType) + "_0_1_0_0"
  {
    assert Bit(Some(false)) == "0" && Bit(Some(true)) == "1";
  }

  /** Both requests are already normalised, and they share the key
      `_by_views_0_1_0_0`. */
  lemma CollidingKeys()
    ensures Normalized(CollisionWriter) == CollisionWriter
    ensures Normalized(CollisionReader) == CollisionReader
    ensures GlobalKey(CollisionReader) == GlobalKey(CollisionWriter)
  {
    WriterNormalized();
    ReaderNormalized();
    SameHead();
  }

  lemma WriterNormalized()
    ensures Normalized(CollisionWriter) == CollisionWriter
  {
    assert Collapse("") == "";
  }

  lemma ReaderNormalized()
    ensures Normalized(CollisionReader) == CollisionReader
  {
    WordsOfJoinSingle(["_by"]);
    assert Join(["_by"], " ") == "_by";
  }

  lemma SameHead()
    ensures GlobalKey(CollisionReader) == GlobalKey(CollisionWriter)
  {
    KeyOfExactSearch(CollisionWriter);
    KeyOfExactSearch(CollisionReader);
    var h := ['_', 'b', 'y', '_', 'v', 'i', 'e', 'w', 's'];
    assert Show(CollisionWriter.search) + "_" + Show(CollisionWriter.sortType) == h;
    assert Show(CollisionReader.search) + "_" + Show(CollisionReader.sortType) == h;
  }

  /** The writer's sort type is listed, the reader's is not. */
  lemma SortTypesOfCollision()
    ensures Dispatch(CollisionWriter.sortType) == Some(Views)
    ensures Dispatch(CollisionReader.sortType).None?
  {
    assert |"views"| == 5;
  }

  /** The reader's search text selects the row. */
  lemma ReaderKeepsRow(o: Oracles)
    ensures FilteredByUsername([CollisionRow], CollisionReader, o) == [CollisionRow]
  {
    assert "a_by"[1..4] == "_by";
    assert OccursAt("_by", "a_by", 1);
    WordOfQueryInKey("_by", RowKey(CollisionRow, false), true, o.partialRatio);
    SingleSelectedRowFound("_by", CollisionRow, true, false, false, o.partialRatio);
  }

  /** Computed on its own, the reader keeps the row and then fails to look up
      its sort type. */
  lemma ReaderRaises(o: Oracles)
    ensures Fresh([CollisionRow], CollisionReader, o) == Err(KeyError(CollisionReader.sortType.value))
  {
    ReaderNormalized();
    ReaderKeepsRow(o);
    SortTypesOfCollision();
    UnlistedSortTypeRaises([CollisionRow], CollisionReader, o);
  }

  /** The writer's result list is not empty. */
  lemma WriterFinds(o: Oracles)
    ensures Fresh([CollisionRow], CollisionWriter, o).Ok?
    ensures Fresh([CollisionRow], CollisionWriter, o).value != []
  {
    SortTypesOfCollision();
    EmptySearchSortsAll([CollisionRow], CollisionWriter, o);
  }

  /** An empty cache holds nothing under the writer's key. */
  lemma EmptyCacheMisses()
    ensures IsMiss(map[], 0, CollisionWriter)
  {
  }

  /** The key does not separate the search text from the sort type. Once the
      writer has cached its result in an empty cache, the reader, whose sort
      type the table does not list, is served a page of that result, although
      computed on its own it raises `KeyError`. */
  lemma KeyCollisionServesOtherResult(o: Oracles)
    ensures GlobalKey(CollisionReader) == GlobalKey(Normalized(CollisionWriter))
    ensures Fresh([CollisionRow], CollisionReader, o) == Err(KeyError(CollisionReader.sortType.value))
    ensures ReadBestiary(map[], 0, [CollisionRow], CollisionWriter, o).Ok?
    ensures var written := ReadBestiary(map[], 0, [CollisionRow], CollisionWriter, o).value.store;
            ReadBestiary(written, 1, [CollisionRow], CollisionReader, o)
            == Ok(Response(Page(Fresh([CollisionRow], CollisionWriter, o).value, CollisionReader), written))
    ensures Fresh([CollisionRow], CollisionWriter, o).Ok? && Fresh([CollisionRow], CollisionWriter, o).value != []
  {
    CollidingKeys();
    ReaderRaises(o);
    WriterFinds(o);
    EmptyCacheMisses();
    ReaderOfEntryIsServedIt(map[], 0, 1, [CollisionRow], CollisionWriter, CollisionReader, o);
  }
}

=== FILE: matcher.dfy ===
/** `smart_search` of app/api/api_v1.py: keeps the keys in which some word of
    the query occurs, literally or by fuzzy score, optionally ignoring case. */
module Matcher {
  import opened Text

  /** The fuzzy score a word needs to count as found in a key. */
  const FuzzyThreshold: int := 80

  /** Keys and query are lower-cased unless `hard_register` is set. */
  function Fold(s: string, hardRegister: bool): string {
    if hardRegister then s else Lower(s)
  }

  /** One query word against one folded key: `fuzz.partial_ratio(word, key) >= 80`
      in fuzzy mode, `re.search(re.escape(word), key)` otherwise. */
  predicate WordMatches(word: string, key: string, fuzzy: bool, partialRatio: (string, string) -> int) {
    if fuzzy then partialRatio(word, key) >= FuzzyThreshold else Contains(key, word)
  }

  /** `any(... for word in words)`. */
  function AnyWordMatches(words: seq<string>, key: string, fuzzy: bool, partialRatio: (string, string) -> int): (b: bool)
    ensures b <==> exists i :: 0 <= i < |words| && WordMatches(words[i], key, fuzzy, partialRatio)
  {
    if words == [] then false
    else if WordMatches(words[0], key, fuzzy, partialRatio) then true
    else
      var b := AnyWordMatches(words[1..], key, fuzzy, partialRatio);
      assert forall i :: 1 <= i < |words| ==> words[i] == words[1..][i - 1];
      b
  }

  /** What `smart_search` selects, stated without the scan: some word of the
      folded query occurs as a block in the folded key, or (in fuzzy mode)
      scores at least the threshold against it. */
  ghost predicate Selected(query: string, key: string, hardRegister: bool, fuzzy: bool,
                           partialRatio: (string, string) -> int) {
    exists w :: w in Words(Fold(query, hardRegister))
      && (if fuzzy then partialRatio(w, Fold(key, hardRegister)) >= FuzzyThreshold
          else IsSubstring(w, Fold(key, hardRegister)))
  }

  lemma AnyWordMatchesIffSelected(query: string, key: string, hardRegister: bool, fuzzy: bool,
                                  partialRatio: (string, string) -> int)
    ensures AnyWordMatches(Words(Fold(query, hardRegister)), Fold(key, hardRegister), fuzzy, partialRatio)
        <==> Selected(query, key, hardRegister, fuzzy, partialRatio)
  {
    var ws := Words(Fold(query, hardRegister));
    var k := Fold(key, hardRegister);
    if AnyWordMatches(ws, k, fuzzy, partialRatio) {
      var i :| 0 <= i < |ws| && WordMatches(ws[i], k, fuzzy, partialRatio);
      ContainsIsSubstring(k, ws[i]);
      assert ws[i] in ws;
    }
    if Selected(query, key, hardRegister, fuzzy, partialRatio) {
      var w :| w in ws && (if fuzzy then partialRatio(w, k) >= FuzzyThreshold else IsSubstring(w, k));
      ContainsIsSubstring(k, w);
      var i :| 0 <= i < |ws| && ws[i] == w;
      assert WordMatches(ws[i], k, fuzzy, partialRatio);
    }
  }

  /** `a` is `b` with some elements left out. */
  predicate IsSubsequence<T(==)>(a: seq<T>, b: seq<T>)
    decreases |b|
  {
    if a == [] then true
    else if b == [] then false
    else if a[0] == b[0] then IsSubsequence(a[1..], b[1..])
    else IsSubsequence(a, b[1..])
  }

  lemma {:induction false} IsSubsequenceOfTail<T>(a: seq<T>, b: seq<T>)
    requires b != [] && IsSubsequence(a, b[1..])
    ensures IsSubsequence(a, b)
    decreases |b|, 0
  {
    if a != [] && a[0] == b[0] {
      SubsequenceDropFirst(a, b[1..]);
    }
  }

  lemma {:induction false} SubsequenceDropFirst<T>(a: seq<T>, b: seq<T>)
    requires a != [] && IsSubsequence(a, b)
    ensures IsSubsequence(a[1..], b)
    decreases |b|, 1
  {
    if a[0] != b[0] {
      SubsequenceDropFirst(a, b[1..]);
    }
    IsSubsequenceOfTail(a[1..], b);
  }

  /** The scan of `smart_search` over the keys, for already folded words. */
  function FilterKeys(words: seq<string>, keys: seq<string>, hardRegister: bool, fuzzy: bool,
                      partialRatio: (string, string) -> int): (r: seq<string>)
    ensures IsSubsequence(r, keys)
    ensures forall k ::
              multiset(r)[k] == if AnyWordMatches(words, Fold(k, hardRegister), fuzzy, partialRatio) then multiset(keys)[k] else 0
    decreases |keys|
  {
    if keys == [] then []
    else
      var rest := FilterKeys(words, keys[1..], hardRegister, fuzzy, partialRatio);
      assert keys == [keys[0]] + keys[1..];
      if AnyWordMatches(words, Fold(keys[0], hardRegister), fuzzy, partialRatio) then
        assert ([keys[0]] + rest)[1..] == rest;
        [keys[0]] + rest
      else
        IsSubsequenceOfTail(rest, keys);
        rest
  }

  /** `smart_search(query, keys, hard_register, fuzzy_search)`: the keys that
      are selected, in their input order, each as often as it occurs. */
  function SmartSearch(query: string, keys: seq<string>, hardRegister: bool, fuzzy: bool,
                       partialRatio: (string, string) -> int): (r: seq<string>)
    ensures IsSubsequence(r, keys)
    ensures forall k ::
              multiset(r)[k] == if Selected(query, k, hardRegister, fuzzy, partialRatio) then multiset(keys)[k] else 0
  {
    forall k {
      AnyWordMatchesIffSelected(query, k, hardRegister, fuzzy, partialRatio);
    }
    FilterKeys(Words(Fold(query, hardRegister)), keys, hardRegister, fuzzy, partialRatio)
  }

  /** A query that is all whitespace selects nothing. */
  lemma SmartSearchOfBlankQuery(query: string, keys: seq<string>, hardRegister: bool, fuzzy: bool,
                                partialRatio: (string, string) -> int)
    requires IsBlank(query)
    ensures SmartSearch(query, keys, hardRegister, fuzzy, partialRatio) == []
  {
    WordsEmptyIffBlank(Fold(query, hardRegister));
  }

  /** Without `hard_register` the case of query and key does not matter. */
  lemma SelectedIgnoresCase(query: string, key: string, fuzzy: bool, partialRatio: (string, string) -> int)
    ensures Selected(Lower(query), Lower(key), false, fuzzy, partialRatio)
        <==> Selected(query, key, false, fuzzy, partialRatio)
  {
    LowerIdempotent(query);
    LowerIdempotent(key);
    assert Fold(Lower(query), false) == Fold(query, false);
    assert Fold(Lower(key), false) == Fold(key, false);
  }

  /** In exact mode a key that contains the whole (non-blank, single-word)
      query is selected. */
  lemma WordOfQueryInKey(query: string, key: string, hardRegister: bool,
                         partialRatio: (string, string) -> int)
    requires IsWord(Fold(query, hardRegister))
    requires IsSubstring(Fold(query, hardRegister), Fold(key, hardRegister))
    ensures Selected(query, key, hardRegister, false, partialRatio)
  {
    var q := Fold(query, hardRegister);
    WordsOfJoinSingle([q]);
    assert Join([q], " ") == q;
    assert q in Words(q);
  }
}

=== FILE: models.dfy ===
/** The data of the search service: the joined bestiary rows it ranks, the
    request settings and their serialisation into a cache key
    (app/api/models.py), and the external scoring functions it calls. */
module Models {
  import opened Wrappers
  import opened PyInt

  /** One row of the `bestiaries` table joined with its author's `username`,
      as the store returns it for published, non-deleted bestiaries.
      Timestamps are instants on one integer time line. */
  datatype Row = Row(
    id: int,
    name: string,
    author: int,            // id of the author in the `users` table
    username: string,       // the author's display name
    dateCreation: int,
    latestUpdate: int,
    isStar: bool,
    averageRating: real,
    countViews: int,
    rang: real,
    srcIcon: string,
    description: string)

  /** `SearchAndSortGlobal`: one request of the global search. */
  datatype GlobalSettings = GlobalSettings(
    shift: int,
    amountPerPage: int,
    search: Option<string>,
    sortType: Option<string>,
    searchAuthor: Option<bool>,
    hardRegister: Option<bool>,
    fuzzySearch: Option<bool>,
    reverse: Option<bool>)

  /** `SearchAndSortMy`: one request of a user's own bestiaries; its
      `search_author` field is declared as text. */
  datatype MySettings = MySettings(
    author: int,
    shift: int,
    amountPerPage: int,
    search: Option<string>,
    sortType: Option<string>,
    searchAuthor: Option<string>,
    hardRegister: Option<bool>,
    fuzzySearch: Option<bool>,
    reverse: Option<bool>)

  /** `SearchAndSortGlobal(shift=..., amount_per_page=...)` with every other
      field left at its declared default. */
  function DefaultGlobal(shift: int, amountPerPage: int): GlobalSettings {
    GlobalSettings(shift, amountPerPage, None, None, None, Some(false), Some(false), Some(false))
  }

  /** `SearchAndSortMy(author=..., shift=..., amount_per_page=...)` with every
      other field left at its declared default. */
  function DefaultMy(author: int, shift: int, amountPerPage: int): MySettings {
    MySettings(author, shift, amountPerPage, None, None, None, Some(false), Some(false), Some(false))
  }

  /** Python truthiness of an optional flag: `None` is false. */
  predicate Truthy(b: Option<bool>) {
    b == Some(true)
  }

  /** `1 if b else 0` inside an f-string. */
  function Bit(b: Option<bool>): string {
    [if Truthy(b) then '1' else '0']
  }

  /** An optional text inside an f-string: `None` renders as `None`. */
  function Show(t: Option<string>): string {
    match t
    case None => "None"
    case Some(s) => s
  }

  /** `str(SearchAndSortGlobal)`: the cache key of a global search. */
  function GlobalKey(s: GlobalSettings): string {
    Show(s.search) + "_" + Show(s.sortType) + "_" + Bit(s.searchAuthor) + "_" + Bit(s.hardRegister)
      + "_" + Bit(s.fuzzySearch) + "_" + Bit(s.reverse)
  }

  /** The parts of a cache key: the text before the four flag bits, and the
      bits themselves. */
  datatype KeyFields = KeyFields(head: string, searchAuthor: bool, hardRegister: bool, fuzzySearch: bool, reverse: bool)

  predicate IsBitChar(c: char) {
    c == '0' || c == '1'
  }

  /** Reads a key of the form `<head>_b_b_b_b` back into its parts. */
  function ParseKey(k: string): Option<KeyFields> {
    var n := |k|;
    if n < 8 then None
    else if k[n - 8] == '_' && k[n - 6] == '_' && k[n - 4] == '_' && k[n - 2] == '_'
         && IsBitChar(k[n - 7]) && IsBitChar(k[n - 5]) && IsBitChar(k[n - 3]) && IsBitChar(k[n - 1])
    then Some(KeyFields(k[..n - 8], k[n - 7] == '1', k[n - 5] == '1', k[n - 3] == '1', k[n - 1] == '1'))
    else None
  }

  /** A head followed by four `_`-separated bit characters reads back into
      exactly those parts. */
  lemma ParseKeyOfParts(head: string, a: char, b: char, c: char, d: char)
    requires IsBitChar(a) && IsBitChar(b) && IsBitChar(c) && IsBitChar(d)
    ensures ParseKey(head + "_" + [a] + "_" + [b] + "_" + [c] + "_" + [d])
         == Some(KeyFields(head, a == '1', b == '1', c == '1', d == '1'))
  {
    var k := head + "_" + [a] + "_" + [b] + "_" + [c] + "_" + [d];
    assert k == head + ['_', a, '_', b, '_', c, '_', d];
    assert k[..|k| - 8] == head;
  }

  /** The key can be read back: its four flags are the truthiness of the four
      flag fields, and the text before them is the search text and the sort
      type joined by `_`. */
  lemma ParseGlobalKey(s: GlobalSettings)
    ensures ParseKey(GlobalKey(s))
         == Some(KeyFields(Show(s.search) + "_" + Show(s.sortType),
                           Truthy(s.searchAuthor), Truthy(s.hardRegister), Truthy(s.fuzzySearch), Truthy(s.reverse)))
  {
    var head := Show(s.search) + "_" + Show(s.sortType);
    var a, b, c, d := Bit(s.searchAuthor)[0], Bit(s.hardRegister)[0], Bit(s.fuzzySearch)[0], Bit(s.reverse)[0];
    ParseKeyOfParts(head, a, b, c, d);
  }

  /** Two settings with the same sort type share a key only if they agree on
      the rendered search text and on the truthiness of every flag. */
  lemma GlobalKeyInjective(s1: GlobalSettings, s2: GlobalSettings)
    requires GlobalKey(s1) == GlobalKey(s2)
    requires s1.sortType == s2.sortType
    ensures Show(s1.search) == Show(s2.search)
    ensures Truthy(s1.searchAuthor) == Truthy(s2.searchAuthor)
    ensures Truthy(s1.hardRegister) == Truthy(s2.hardRegister)
    ensures Truthy(s1.fuzzySearch) == Truthy(s2.fuzzySearch)
    ensures Truthy(s1.reverse) == Truthy(s2.reverse)
  {
    ParseGlobalKey(s1);
    ParseGlobalKey(s2);
    var h1 := Show(s1.search) + "_" + Show(s1.sortType);
    var h2 := Show(s2.search) + "_" + Show(s2.sortType);
    assert h1 == h2;
    var m := 1 + |Show(s1.sortType)|;
    assert Show(s1.search) == h1[..|h1| - m];
    assert Show(s2.search) == h2[..|h2| - m];
  }

  /** The key leaves out `shift` and `amount_per_page`: every page of one
      query shares one key. */
  lemma GlobalKeyIgnoresPaging(s: GlobalSettings, shift: int, amountPerPage: int)
    ensures GlobalKey(s.(shift := shift, amountPerPage := amountPerPage)) == GlobalKey(s)
  {
  }

  /** A `None` flag renders like `False`, and a `None` text renders as the
      word `None`, so the default settings have the key `None_None_0_0_0_0`. */
  lemma DefaultGlobalKey(shift: int, amountPerPage: int)
    ensures GlobalKey(DefaultGlobal(shift, amountPerPage)) == "None_None_0_0_0_0"
  {
  }

  /** A missing search text and the literal search text `None` share a key. */
  lemma NoneSearchSharesKey(s: GlobalSettings)
    ensures GlobalKey(s.(search := None)) == GlobalKey(s.(search := Some("None")))
  {
  }

  /** `int(b)` for an optional flag: `None` raises `TypeError`. */
  function IntOfFlag(b: Option<bool>): Result<int> {
    match b
    case None => Err(TypeError)
    case Some(v) => Ok(if v then 1 else 0)
  }

  /** `int(t)` for an optional text: `None` raises `TypeError`, a text that is
      not an integer literal raises `ValueError`. */
  function IntOfText(t: Option<string>): Result<int> {
    match t
    case None => Err(TypeError)
    case Some(x) =>
      match ParseInt(x)
      case None => Err(ValueError)
      case Some(n) => Ok(n)
  }

  /** `str(SearchAndSortMy)`: the same six-field layout as the global key, but
      the flags are converted with `int(...)`, left to right. */
  function MyKey(s: MySettings): Result<string> {
    var a :- IntOfText(s.searchAuthor);
    var h :- IntOfFlag(s.hardRegister);
    var f :- IntOfFlag(s.fuzzySearch);
    var r :- IntOfFlag(s.reverse);
    Ok(Show(s.search) + "_" + Show(s.sortType) + "_" + IntText(a) + "_" + IntText(h)
       + "_" + IntText(f) + "_" + IntText(r))
  }

  /** With its default `search_author` of `None`, a `SearchAndSortMy` has no
      key: building it raises `TypeError`. */
  lemma MyKeyOfDefaults(author: int, shift: int, amountPerPage: int)
    ensures MyKey(DefaultMy(author, shift, amountPerPage)) == Err(TypeError)
  {
  }

  /** When `search_author` holds the decimal text of an integer and the flags
      are set, the key shows that integer where the global key shows a bit. */
  lemma {:induction false} MyKeyOfAuthorText(s: MySettings, n: int, h: bool, f: bool, r: bool)
    requires s.searchAuthor == Some(IntText(n))
    requires s.hardRegister == Some(h) && s.fuzzySearch == Some(f) && s.reverse == Some(r)
    ensures MyKey(s) == Ok(Show(s.search) + "_" + Show(s.sortType) + "_" + IntText(n)
                           + "_" + Bit(Some(h)) + "_" + Bit(Some(f)) + "_" + Bit(Some(r)))
  {
    ParseIntText(n);
    assert IntText(1) == "1";
    assert IntText(0) == "0";
  }

  /** Where both keys exist and `search_author` is `0` or `1`, the two
      settings classes serialise alike. */
  lemma MyKeyAgreesWithGlobal(s: MySettings, g: GlobalSettings, author: bool)
    requires s.searchAuthor == Some(if author then "1" else "0")
    requires s.hardRegister.Some? && s.fuzzySearch.Some? && s.reverse.Some?
    requires g == GlobalSettings(s.shift, s.amountPerPage, s.search, s.sortType, Some(author),
                                 s.hardRegister, s.fuzzySearch, s.reverse)
    ensures MyKey(s) == Ok(GlobalKey(g))
  {
    var n := if author then 1 else 0;
    assert IntText(n) == (if author then "1" else "0");
    MyKeyOfAuthorText(s, n, s.hardRegister.value, s.fuzzySearch.value, s.reverse.value);
  }

  /** The external scoring functions the core calls, left uninterpreted:
      `fuzz.partial_ratio`, `fuzz.ratio` and `correction_function`. */
  datatype Oracles = Oracles(
    partialRatio: (string, string) -> int,
    ratio: (string, Option<string>) -> int,
    correction: int -> real)
}

=== FILE: ordered_dict.dfy ===
/** Python's `dict`: a sequence of key/value pairs in insertion order, with
    every key at most once. Assigning to a present key replaces its value in
    place; assigning to a new key appends it. */
module OrderedDict {

  type Dict<K, V> = seq<(K, V)>

  /** `list(d.keys())`. */
  function Keys<K, V>(d: Dict<K, V>): (ks: seq<K>)
    ensures |ks| == |d|
    ensures forall p :: 0 <= p < |d| ==> ks[p] == d[p].0
  {
    if d == [] then [] else [d[0].0] + Keys(d[1..])
  }

  predicate Distinct<K(==)>(ks: seq<K>) {
    forall p, q :: 0 <= p < q < |ks| ==> ks[p] != ks[q]
  }

  /** The position of key `k` in `d`. */
  function IndexOf<K(==), V>(d: Dict<K, V>, k: K): (p: nat)
    requires k in Keys(d)
    ensures p < |d| && d[p].0 == k
    ensures forall q :: 0 <= q < p ==> d[q].0 != k
  {
    if d[0].0 == k then 0 else 1 + IndexOf(d[1..], k)
  }

  /** `d[k]` for a present key. */
  function Get<K(==), V>(d: Dict<K, V>, k: K): (v: V)
    requires k in Keys(d)
    ensures Distinct(Keys(d)) ==> forall p :: 0 <= p < |d| && d[p].0 == k ==> v == d[p].1
  {
    d[IndexOf(d, k)].1
  }

  lemma KeysOfCons<K, V>(x: (K, V), d: Dict<K, V>)
    ensures Keys([x] + d) == [x.0] + Keys(d)
  {
    assert ([x] + d)[1..] == d;
  }

  /** The tail of a list of distinct keys is distinct and lacks the head. */
  lemma DistinctTail<K>(ks: seq<K>)
    requires ks != [] && Distinct(ks)
    ensures Distinct(ks[1..]) && ks[0] !in ks[1..]
  {
    assert forall q :: 0 <= q < |ks| - 1 ==> ks[1..][q] == ks[q + 1];
  }

  lemma DistinctCons<K>(x: K, ks: seq<K>)
    requires Distinct(ks) && x !in ks
    ensures Distinct([x] + ks)
  {
    assert forall q :: 0 <= q < |ks| ==> ([x] + ks)[q + 1] == ks[q];
  }

  /** The key `k` written into a dictionary that lacks `x.0` does not
      bring `x.0` in. */
  lemma PutLacksHead<K, V>(x: (K, V), tail: Dict<K, V>, rest: Dict<K, V>, k: K, v: V)
    requires x.0 != k && x.0 !in Keys(tail)
    requires k in Keys(tail) ==>
               |rest| == |tail| && forall p :: 0 <= p < |tail| ==> rest[p] == (if tail[p].0 == k then (k, v) else tail[p])
    requires k !in Keys(tail) ==> rest == tail + [(k, v)]
    ensures x.0 !in Keys(rest)
  {
    assert forall q :: 0 <= q < |rest| ==> Keys(rest)[q] == k || Keys(rest)[q] == Keys(tail)[q];
  }

  /** The recursive step of `Put` when `k` is present: an entry for another
      key in front keeps its place. */
  lemma PutBehindHeadPresent<K, V>(x: (K, V), tail: Dict<K, V>, rest: Dict<K, V>, k: K, v: V)
    requires x.0 != k
    requires |rest| == |tail| && forall p :: 0 <= p < |tail| ==> rest[p] == (if tail[p].0 == k then (k, v) else tail[p])
    ensures |[x] + rest| == |[x] + tail|
    ensures forall p :: 0 <= p < |[x] + tail| ==>
              ([x] + rest)[p] == (if ([x] + tail)[p].0 == k then (k, v) else ([x] + tail)[p])
  {
    assert forall p :: 1 <= p < |[x] + tail| ==> ([x] + rest)[p] == rest[p - 1] && ([x] + tail)[p] == tail[p - 1];
  }

  /** `d[k] = v`. */
  function Put<K(==), V>(d: Dict<K, V>, k: K, v: V): (r: Dict<K, V>)
    requires Distinct(Keys(d))
    ensures Distinct(Keys(r))
    ensures k in Keys(d) ==> |r| == |d| && forall p :: 0 <= p < |d| ==> r[p] == (if d[p].0 == k then (k, v) else d[p])
    ensures k !in Keys(d) ==> r == d + [(k, v)]
  {
    if d == [] then
      [(k, v)]
    else
      var tail := d[1..];
      assert d == [d[0]] + tail;
      KeysOfCons(d[0], tail);
      DistinctTail(Keys(d));
      if d[0].0 == k then
        KeysOfCons((k, v), tail);
        DistinctCons(k, Keys(tail));
        [(k, v)] + tail
      else
        var rest := Put(tail, k, v);
        PutLacksHead(d[0], tail, rest, k, v);
        KeysOfCons(d[0], rest);
        DistinctCons(d[0].0, Keys(rest));
        if k in Keys(tail) then
          PutBehindHeadPresent(d[0], tail, rest, k, v);
          [d[0]] + rest
        else
          assert [d[0]] + rest == d + [(k, v)];
          [d[0]] + rest
  }

  /** After `d[k] = v`, `d[k]` is `v`. */
  lemma GetAfterPutSame<K, V>(d: Dict<K, V>, k: K, v: V)
    requires Distinct(Keys(d))
    ensures k in Keys(Put(d, k, v)) && Get(Put(d, k, v), k) == v
  {
    var r := Put(d, k, v);
    var p := if k in Keys(d) then IndexOf(d, k) else |d|;
    assert r[p].0 == k && Keys(r)[p] == k;
  }

  lemma KeysAgree<K, V>(a: Dict<K, V>, b: Dict<K, V>)
    requires |a| == |b| && forall p :: 0 <= p < |a| ==> a[p].0 == b[p].0
    ensures Keys(a) == Keys(b)
  {
  }

  lemma KeysOfSnoc<K, V>(d: Dict<K, V>, x: (K, V))
    ensures Keys(d + [x]) == Keys(d) + [x.0]
  {
    assert forall p :: 0 <= p < |d| ==> (d + [x])[p] == d[p];
  }

  /** The key list after `d[k] = v`. */
  lemma KeysOfPut<K, V>(d: Dict<K, V>, k: K, v: V)
    requires Distinct(Keys(d))
    ensures k in Keys(d) ==> Keys(Put(d, k, v)) == Keys(d)
    ensures k !in Keys(d) ==> Keys(Put(d, k, v)) == Keys(d) + [k]
  {
    var r := Put(d, k, v);
    if k in Keys(d) {
      KeysAgree(r, d);
    } else {
      KeysOfSnoc(d, (k, v));
    }
  }

  /** `d[k] = v` adds exactly the key `k`. */
  lemma KeysAfterPut<K, V>(d: Dict<K, V>, k: K, v: V, other: K)
    requires Distinct(Keys(d))
    ensures other in Keys(Put(d, k, v)) <==> other == k || other in Keys(d)
  {
    KeysOfPut(d, k, v);
  }

  /** `d[k] = v` leaves the value of every other key as it was. */
  lemma GetAfterPutOther<K, V>(d: Dict<K, V>, k: K, v: V, other: K)
    requires Distinct(Keys(d))
    requires other != k && other in Keys(d)
    ensures other in Keys(Put(d, k, v)) && Get(Put(d, k, v), other) == Get(d, other)
  {
    var r := Put(d, k, v);
    var p := IndexOf(d, other);
    assert r[p] == d[p] && Keys(r)[p] == other;
  }

  /** After `d[k] = v`, `d[k]` is `v`, every other key still maps to its old
      value, and the keys are the old keys plus `k`. */
  lemma GetAfterPut<K, V>(d: Dict<K, V>, k: K, v: V, other: K)
    requires Distinct(Keys(d))
    ensures k in Keys(Put(d, k, v)) && Get(Put(d, k, v), k) == v
    ensures other in Keys(Put(d, k, v)) <==> other == k || other in Keys(d)
    ensures other != k && other in Keys(d) ==> Get(Put(d, k, v), other) == Get(d, other)
  {
    GetAfterPutSame(d, k, v);
    KeysAfterPut(d, k, v, other);
    if other != k && other in Keys(d) {
      GetAfterPutOther(d, k, v, other);
    }
  }
}

=== FILE: pyint.dfy ===
/** Python's conversions between `int` and decimal text: `int(text)` and the
    rendering of an `int` inside an f-string. */
module PyInt {
  import opened Wrappers
  import opened Text

  predicate IsDigit(c: char) {
    '0' <= c <= '9'
  }

  function DigitChar(d: nat): (c: char)
    requires d < 10
    ensures IsDigit(c)
  {
    ('0' as int + d) as char
  }

  function DigitValue(c: char): (d: nat)
    requires IsDigit(c)
    ensures d < 10 && DigitChar(d) == c
  {
    c as int - '0' as int
  }

  lemma DigitValueOfChar(d: nat)
    requires d < 10
    ensures DigitValue(DigitChar(d)) == d
  {
  }

  /** Value of a run of decimal digits, most significant digit first. */
  function DigitsValue(ds: string): nat
    requires forall i :: 0 <= i < |ds| ==> IsDigit(ds[i])
  {
    if ds == [] then 0 else 10 * DigitsValue(ds[..|ds| - 1]) + DigitValue(ds[|ds| - 1])
  }

  /** `f'{n}'` for a non-negative `n`: its decimal digits, without leading zeros. */
  function NatText(n: nat): (r: string)
    ensures |r| > 0
    ensures forall i :: 0 <= i < |r| ==> IsDigit(r[i])
    ensures |r| > 1 ==> r[0] != '0'
  {
    if n < 10 then [DigitChar(n)] else NatText(n / 10) + [DigitChar(n % 10)]
  }

  /** `f'{n}'` for any `n`: a minus sign before the digits of a negative number. */
  function IntText(n: int): string {
    if n < 0 then "-" + NatText(-n) else NatText(n)
  }

  /** The digit part of a Python integer literal: digits, with single
      underscores allowed between two digits. */
  predicate IsDigitRun(s: string) {
    && |s| > 0 && IsDigit(s[0]) && IsDigit(s[|s| - 1])
    && (forall i :: 0 <= i < |s| ==> IsDigit(s[i]) || s[i] == '_')
    && (forall i :: 0 <= i < |s| - 1 ==> s[i] != '_' || s[i + 1] != '_')
  }

  function DropUnderscores(s: string): (r: string)
    requires forall i :: 0 <= i < |s| ==> IsDigit(s[i]) || s[i] == '_'
    ensures forall i :: 0 <= i < |r| ==> IsDigit(r[i])
  {
    if s == [] then []
    else (if s[0] == '_' then [] else [s[0]]) + DropUnderscores(s[1..])
  }

  /** `int(t)` for a `str` `t`: whitespace around the literal is ignored, one
      sign is allowed; `None` where Python raises `ValueError`. */
  function ParseInt(t: string): Option<int> {
    ParseLiteral(TrimEnd(TrimStart(t)))
  }

  /** `int(u)` for a text `u` with no surrounding whitespace. */
  function ParseLiteral(u: string): Option<int> {
    if u == [] then None
    else if u[0] == '-' then
      match ParseUnsigned(u[1..])
      case None => None
      case Some(m) => Some(-m)
    else if u[0] == '+' then ParseUnsigned(u[1..])
    else ParseUnsigned(u)
  }

  /** The value of an unsigned literal, `None` if `body` is not one. */
  function ParseUnsigned(body: string): Option<int> {
    if IsDigitRun(body) then Some(DigitsValue(DropUnderscores(body))) else None
  }

  lemma {:induction false} DigitsValueOfNatText(n: nat)
    ensures DigitsValue(NatText(n)) == n
    decreases n
  {
    if n < 10 {
      DigitValueOfChar(n);
      assert NatText(n)[..0] == [];
    } else {
      var r := NatText(n);
      DigitsValueOfNatText(n / 10);
      DigitValueOfChar(n % 10);
      assert r[..|r| - 1] == NatText(n / 10);
    }
  }

  lemma {:induction false} DropUnderscoresOfDigits(s: string)
    requires forall i :: 0 <= i < |s| ==> IsDigit(s[i])
    ensures DropUnderscores(s) == s
    decreases |s|
  {
    if s != [] {
      DropUnderscoresOfDigits(s[1..]);
      assert s == [s[0]] + s[1..];
    }
  }

  /** Text without surrounding whitespace is parsed as it stands. */
  lemma ParseIntOfTrimmed(t: string)
    requires |t| > 0 && !IsSpace(t[0]) && !IsSpace(t[|t| - 1])
    ensures ParseInt(t) == ParseLiteral(t)
  {
    assert TrimStart(t) == t;
    assert TrimEnd(t) == t;
  }

  lemma DigitsAreDigitRun(digits: string)
    requires |digits| > 0 && forall i :: 0 <= i < |digits| ==> IsDigit(digits[i])
    ensures ParseUnsigned(digits) == Some(DigitsValue(digits))
  {
    DropUnderscoresOfDigits(digits);
  }

  lemma DigitsEnds(digits: string)
    requires |digits| > 0 && forall i :: 0 <= i < |digits| ==> IsDigit(digits[i])
    ensures var t := "-" + digits; |t| > 0 && !IsSpace(t[0]) && !IsSpace(t[|t| - 1])
    ensures !IsSpace(digits[0]) && !IsSpace(digits[|digits| - 1])
  {
    var t := "-" + digits;
    assert t[|t| - 1] == digits[|digits| - 1];
    assert IsDigit(digits[0]) && IsDigit(digits[|digits| - 1]);
  }

  /** A run of plain digits parses to its value. */
  lemma ParseIntOfDigits(digits: string)
    requires |digits| > 0 && forall i :: 0 <= i < |digits| ==> IsDigit(digits[i])
    ensures ParseInt(digits) == Some(DigitsValue(digits))
  {
    DigitsEnds(digits);
    DigitsAreDigitRun(digits);
    ParseIntOfTrimmed(digits);
  }

  lemma ParseLiteralOfNegated(body: string, m: int)
    requires ParseUnsigned(body) == Some(m)
    ensures ParseLiteral("-" + body) == Some(-m)
  {
    var t := "-" + body;
    assert t[0] == '-' && t[1..] == body;
  }

  /** A minus sign before a run of plain digits of value `m` parses to `-m`. */
  lemma ParseIntOfNegatedDigits(digits: string, m: int)
    requires |digits| > 0 && forall i :: 0 <= i < |digits| ==> IsDigit(digits[i])
    requires m == DigitsValue(digits)
    ensures ParseInt("-" + digits) == Some(-m)
  {
    DigitsAreDigitRun(digits);
    ParseLiteralOfNegated(digits, m);
    DigitsEnds(digits);
    ParseIntOfTrimmed("-" + digits);
  }

  /** Reading back the decimal text of any integer gives the integer:
      `int(f'{n}') == n`. */
  lemma ParseIntText(n: int)
    ensures ParseInt(IntText(n)) == Some(n)
  {
    var m: nat := if n < 0 then -n else n;
    DigitsValueOfNatText(m);
    if n < 0 {
      ParseIntOfNegatedDigits(NatText(m), m);
    } else {
      ParseIntOfDigits(NatText(m));
    }
  }
}

=== FILE: ranks.dfy ===
/** The values the sort keys of app/api/sort_models.py return, and Python's
    `<=` on them. */
module Ranks {
  import opened Text

  /** A sort key: a float score, an integer count, a text, or a timestamp.
      One sort mode produces one kind of rank for every row. */
  datatype Rank =
    | RealKey(x: real)
    | IntKey(n: int)
    | StrKey(s: string)
    | TimeKey(t: int)

  function Tag(r: Rank): nat {
    match r
    case RealKey(_) => 0
    case IntKey(_) => 1
    case StrKey(_) => 2
    case TimeKey(_) => 3
  }

  /** `a <= b` between two ranks of one kind. Ranks of different kinds are
      never compared by the service (Python would raise `TypeError`); they are
      ordered by kind so that the order is total. */
  predicate RankLe(a: Rank, b: Rank) {
    match (a, b)
    case (RealKey(x), RealKey(y)) => x <= y
    case (IntKey(x), IntKey(y)) => x <= y
    case (StrKey(x), StrKey(y)) => TextLe(x, y)
    case (TimeKey(x), TimeKey(y)) => x <= y
    case _ => Tag(a) < Tag(b)
  }

  lemma RankLeTotal(a: Rank, b: Rank)
    ensures RankLe(a, b) || RankLe(b, a)
  {
    if a.StrKey? && b.StrKey? {
      TextLeTotal(a.s, b.s);
    }
  }

  lemma RankLeReflexive(a: Rank)
    ensures RankLe(a, a)
  {
    RankLeTotal(a, a);
  }

  lemma RankLeAntisymmetric(a: Rank, b: Rank)
    requires RankLe(a, b) && RankLe(b, a)
    ensures a == b
  {
    if a.StrKey? && b.StrKey? {
      TextLeAntisymmetric(a.s, b.s);
    }
  }

  lemma RankLeTransitive(a: Rank, b: Rank, c: Rank)
    requires RankLe(a, b) && RankLe(b, c)
    ensures RankLe(a, c)
  {
    if a.StrKey? && b.StrKey? && c.StrKey? {
      TextLeTransitive(a.s, b.s, c.s);
    }
  }
}

=== FILE: redis_cache.dfy ===
/** The result cache of app/api/including_redis.py: values stored in Redis
    under `<key>_<id>` with a time to live. The Redis server is a map from
    addresses to entries; the clock is a parameter. */
module RedisCache {
  import opened Wrappers
  import opened Models

  /** What a cache entry holds once read back: a list of rows
      (`set_list_cache_to_redis`) or a single row (`set_item_cache_to_redis`). */
  datatype Payload = ListPayload(rows: seq<Row>) | ItemPayload(row: Row)

  /** A stored value and the instant (in seconds) from which it is gone. */
  datatype Entry = Entry(payload: Payload, expiresAt: int)

  type Store = map<string, Entry>

  /** The default time to live of `set_cache`, in seconds. */
  const DefaultTimer: int := 900

  /** `f'{key}_{id}'`: the Redis key of an entry. */
  function Address(key: string, id: string): string {
    key + "_" + id
  }

  /** `redis_client.setex(address, timer, value)`: Redis refuses a time to
      live that is not positive. */
  function SetEx(store: Store, now: int, address: string, payload: Payload, timer: int): (r: Result<Store>)
    ensures timer <= 0 ==> r == Err(ResponseError)
    ensures timer > 0 ==> r.Ok? && address in r.value && r.value[address] == Entry(payload, now + timer)
    ensures timer > 0 ==> forall a :: a != address ==> (a in r.value <==> a in store)
    ensures timer > 0 ==> forall a :: a != address && a in store ==> r.value[a] == store[a]
  {
    if timer <= 0 then Err(ResponseError) else Ok(store[address := Entry(payload, now + timer)])
  }

  /** `set_item_cache_to_redis`. */
  function SetItemCache(store: Store, now: int, key: string, id: string, row: Row, timer: int := DefaultTimer): (r: Result<Store>)
    ensures timer <= 0 ==> r == Err(ResponseError)
    ensures timer > 0 ==> r == Ok(store[Address(key, id) := Entry(ItemPayload(row), now + timer)])
  {
    SetEx(store, now, Address(key, id), ItemPayload(row), timer)
  }

  /** `set_list_cache_to_redis`. */
  function SetListCache(store: Store, now: int, key: string, id: string, rows: seq<Row>, timer: int := DefaultTimer): (r: Result<Store>)
    ensures timer <= 0 ==> r == Err(ResponseError)
    ensures timer > 0 ==> r == Ok(store[Address(key, id) := Entry(ListPayload(rows), now + timer)])
  {
    SetEx(store, now, Address(key, id), ListPayload(rows), timer)
  }

  /** `set_cache`: a list goes to the list writer, anything else to the item
      writer; either way the value is stored at `key_id` for `timer` seconds. */
  function SetCache(store: Store, now: int, key: string, id: string, payload: Payload, timer: int := DefaultTimer): (r: Result<Store>)
    ensures timer <= 0 ==> r == Err(ResponseError)
    ensures timer > 0 ==> r == Ok(store[Address(key, id) := Entry(payload, now + timer)])
  {
    match payload
    case ListPayload(rows) => SetListCache(store, now, key, id, rows, timer)
    case ItemPayload(row) => SetItemCache(store, now, key, id, row, timer)
  }

  /** `get_cache_from_redis`: the stored value while it lives, `None` once it
      has expired or when nothing was stored. */
  function GetCache(store: Store, now: int, key: string, id: string): (r: Option<Payload>)
    ensures r.Some? <==> Address(key, id) in store && now < store[Address(key, id)].expiresAt
    ensures r.Some? ==> r.value == store[Address(key, id)].payload
  {
    var a := Address(key, id);
    if a in store && now < store[a].expiresAt then Some(store[a].payload) else None
  }

  /** `delete_cache_from_redis`. */
  function DeleteCache(store: Store, key: string, id: string): (r: Store)
    ensures Address(key, id) !in r
    ensures forall a :: a != Address(key, id) ==> (a in r <==> a in store)
    ensures forall a :: a != Address(key, id) && a in store ==> r[a] == store[a]
  {
    map a | a in store && a != Address(key, id) :: store[a]
  }

  /** A value written with `set_cache` is read back unchanged until its time
      to live has passed, and not after. */
  lemma GetAfterSet(store: Store, now: int, key: string, id: string, payload: Payload, timer: int, later: int)
    requires timer > 0 && now <= later
    ensures SetCache(store, now, key, id, payload, timer).Ok?
    ensures GetCache(SetCache(store, now, key, id, payload, timer).value, later, key, id)
         == if later < now + timer then Some(payload) else None
  {
  }

  /** With the default timer an entry lives for exactly 900 seconds. */
  lemma DefaultLifetime(store: Store, now: int, key: string, id: string, rows: seq<Row>)
    ensures SetCache(store, now, key, id, ListPayload(rows)).Ok?
    ensures GetCache(SetCache(store, now, key, id, ListPayload(rows)).value, now + 899, key, id) == Some(ListPayload(rows))
    ensures GetCache(SetCache(store, now, key, id, ListPayload(rows)).value, now + 900, key, id) == None
  {
  }

  /** Writing one address leaves what is read at every other address as it
      was. */
  lemma SetLeavesOthers(store: Store, now: int, key: string, id: string, payload: Payload, timer: int,
                        key2: string, id2: string, later: int)
    requires timer > 0
    requires Address(key2, id2) != Address(key, id)
    ensures GetCache(SetCache(store, now, key, id, payload, timer).value, later, key2, id2) == GetCache(store, later, key2, id2)
  {
  }

  /** After a delete nothing is read at that address; other addresses are
      untouched. */
  lemma GetAfterDelete(store: Store, key: string, id: string, key2: string, id2: string, now: int)
    ensures GetCache(DeleteCache(store, key, id), now, key, id) == None
    ensures Address(key2, id2) != Address(key, id)
         ==> GetCache(DeleteCache(store, key, id), now, key2, id2) == GetCache(store, now, key2, id2)
  {
  }

  /** The address does not separate key from id: `("a_b", "")` and
      `("a", "b_")` name the same entry. */
  lemma AddressesCollide()
    ensures Address("a_b", "") == Address("a", "b_")
  {
  }
}

=== FILE: search.dfy ===
/** The global search endpoint of app/api/api_v1.py: the sort-type table,
    `sort_result`, the page slice and `read_bestiary`, which serves a page from
    the cache or computes it from the published rows and caches it. */
module Search {
  import opened Wrappers
  import opened Text
  import opened Models
  import opened Ranks
  import opened StableSort
  import opened SortModels
  import opened Matcher
  import opened Index
  import opened RedisCache

  /** The seven ways the result list can be ordered. */
  datatype SortMode = Popularity | Views | Rating | Name | Publication | LastUpdate | Likeness

  /** `all_types_sorting`: the names the help endpoint lists. */
  const AllTypesSorting: seq<string> :=
    ["by_popularity", "by_views", "by_rating", "by_name", "by_publication", "by_last_update", "by_likeness"]

  function ModeName(m: SortMode): string {
    match m
    case Popularity => "by_popularity"
    case Views => "by_views"
    case Rating => "by_rating"
    case Name => "by_name"
    case Publication => "by_publication"
    case LastUpdate => "by_last_update"
    case Likeness => "by_likeness"
  }

  /** `sorting_function_by_type[sort_type]`: a missing sort type means
      popularity; a name outside the table has no entry. */
  function Dispatch(sortType: Option<string>): (m: Option<SortMode>)
    ensures sortType.None? ==> m == Some(Popularity)
    ensures sortType.Some? ==> (m.Some? <==> sortType.value in AllTypesSorting)
    ensures sortType.Some? && m.Some? ==> ModeName(m.value) == sortType.value
  {
    match sortType
    case None => Some(Popularity)
    case Some(t) =>
      if t == "by_popularity" then Some(Popularity)
      else if t == "by_views" then Some(Views)
      else if t == "by_rating" then Some(Rating)
      else if t == "by_name" then Some(Name)
      else if t == "by_publication" then Some(Publication)
      else if t == "by_last_update" then Some(LastUpdate)
      else if t == "by_likeness" then Some(Likeness)
      else None
  }

  /** Every listed name selects a mode, and every mode is selected by its
      listed name. */
  lemma DispatchOfModeName(m: SortMode)
    ensures ModeName(m) in AllTypesSorting
    ensures Dispatch(Some(ModeName(m))) == Some(m)
  {
  }

  /** The sort key function of a mode. */
  function RankOf(m: SortMode, d: Row, s: GlobalSettings, o: Oracles): Rank {
    match m
    case Popularity => ByPopularity(d, s, o)
    case Views => ByViews(d, s, o)
    case Rating => ByRating(d, s, o)
    case Name => ByName(d, s, o)
    case Publication => ByPublication(d, s, o)
    case LastUpdate => ByLastUpdate(d, s, o)
    case Likeness => ByLikeness(d, s, o)
  }

  function RankKey(m: SortMode, s: GlobalSettings, o: Oracles): Row -> Rank {
    (d: Row) => RankOf(m, d, s, o)
  }

  /** Of all the settings only the search text reaches a rank, and only in
      the likeness mode. */
  lemma RankReadsOnlySearch(m: SortMode, d: Row, s1: GlobalSettings, s2: GlobalSettings, o: Oracles)
    requires m == Likeness ==> s1.search == s2.search
    ensures RankOf(m, d, s1, o) == RankOf(m, d, s2, o)
  {
  }

  /** Two settings with one search text and one sort direction sort alike. */
  lemma SortIgnoresOtherSettings(data: seq<Row>, m: SortMode, s1: GlobalSettings, s2: GlobalSettings, o: Oracles,
                                 descending: bool)
    requires s1.search == s2.search
    ensures Sort(data, RankKey(m, s1, o), descending) == Sort(data, RankKey(m, s2, o), descending)
  {
    forall d
      ensures RankKey(m, s1, o)(d) == RankKey(m, s2, o)(d)
    {
      RankReadsOnlySearch(m, d, s1, s2, o);
    }
    SortCongruence(data, RankKey(m, s1, o), RankKey(m, s2, o), descending);
  }

  /** `sort_result(data, settings)`: nothing when the list does not reach the
      requested offset; otherwise the list sorted by the mode's key, highest
      first unless `reverse` is set. An unknown sort type raises `KeyError` as
      soon as the key function is looked up for a row. */
  function SortResult(data: seq<Row>, s: GlobalSettings, o: Oracles): (r: Result<seq<Row>>)
    ensures |data| <= s.shift ==> r == Ok([])
    ensures data == [] ==> r == Ok([])
    ensures |data| > s.shift && data != [] && Dispatch(s.sortType).None?
         ==> r == Err(KeyError(s.sortType.value))
    ensures |data| > s.shift && data != [] && Dispatch(s.sortType).Some?
         ==> r.Ok? && IsStableSortOf(r.value, data, RankKey(Dispatch(s.sortType).value, s, o), !Truthy(s.reverse))
  {
    if |data| <= s.shift || data == [] then
      Ok([])
    else
      match Dispatch(s.sortType)
      case None => Err(KeyError(s.sortType.value))
      case Some(m) => Ok(Sort(data, RankKey(m, s, o), !Truthy(s.reverse)))
  }

  /** A sorted result is fixed by the stable-sort description: whatever
      meets it is what `sort_result` returns. */
  lemma SortResultUnique(data: seq<Row>, s: GlobalSettings, o: Oracles, r: seq<Row>)
    requires |data| > s.shift && data != [] && Dispatch(s.sortType).Some?
    requires IsStableSortOf(r, data, RankKey(Dispatch(s.sortType).value, s, o), !Truthy(s.reverse))
    ensures SortResult(data, s, o) == Ok(r)
  {
    StableSortUnique(r, data, RankKey(Dispatch(s.sortType).value, s, o), !Truthy(s.reverse));
  }

  // ---------------------------------------------------------------------------
  // Slicing

  /** Where Python's slice bound `i` lands in a list of length `n`. */
  function SliceIndex(i: int, n: nat): (j: nat)
    ensures j <= n
    ensures 0 <= i <= n ==> j == i
    ensures i > n ==> j == n
    ensures i < 0 && i + n >= 0 ==> j == i + n
    ensures i + n < 0 ==> j == 0
  {
    if i < 0 then (if i + n < 0 then 0 else i + n) else if i > n then n else i
  }

  /** `xs[start:stop]`. */
  function PySlice<T>(xs: seq<T>, start: int, stop: int): (r: seq<T>)
    ensures |r| <= |xs|
  {
    var lo := SliceIndex(start, |xs|);
    var hi := SliceIndex(stop, |xs|);
    if lo >= hi then [] else xs[lo..hi]
  }

  /** `results[shift:min(shift + amount_per_page, len(results))]`. */
  function Page<T>(results: seq<T>, s: GlobalSettings): (r: seq<T>)
    ensures s.amountPerPage >= 0 ==> |r| <= s.amountPerPage
    ensures s.shift >= 0 ==> forall i :: 0 <= i < |r| ==> s.shift + i < |results| && r[i] == results[s.shift + i]
    ensures 0 <= s.shift && 0 <= s.amountPerPage && s.shift + s.amountPerPage <= |results| ==> |r| == s.amountPerPage
    ensures 0 <= s.shift <= |results| && 0 <= s.amountPerPage && s.shift + s.amountPerPage > |results|
         ==> |r| == |results| - s.shift
    ensures s.shift >= |results| ==> r == []
  {
    var stop := if s.shift + s.amountPerPage < |results| then s.shift + s.amountPerPage else |results|;
    PySlice(results, s.shift, stop)
  }

  /** Two consecutive pages together are the page of their combined size. */
  lemma PagesTile<T>(results: seq<T>, s: GlobalSettings, first: int, second: int)
    requires s.shift >= 0 && first >= 0 && second >= 0
    ensures Page(results, s.(amountPerPage := first)) + Page(results, s.(shift := s.shift + first, amountPerPage := second))
         == Page(results, s.(amountPerPage := first + second))
  {
  }

  /** A negative shift counts from the end of the list while a non-negative
      stop bound counts from its start, so such a page of a long enough list
      is empty. */
  lemma NegativeShiftPage<T>(results: seq<T>, s: GlobalSettings)
    requires s.shift < 0 && s.amountPerPage >= 0 && s.shift + s.amountPerPage >= 0
    requires |results| >= -s.shift && |results| >= s.amountPerPage
    ensures Page(results, s) == []
  {
  }

  // ---------------------------------------------------------------------------
  // read_bestiary

  /** `' '.join(search.split())`, with a missing search text becoming `''`. */
  function NormalizeSearch(t: Option<string>): string {
    match t
    case None => ""
    case Some(x) => Collapse(x)
  }

  /** The settings after the handler normalises `search` in place. */
  function Normalized(s: GlobalSettings): (n: GlobalSettings)
    ensures n.search.Some?
    ensures n == s.(search := n.search)
  {
    s.(search := Some(NormalizeSearch(s.search)))
  }

  /** A search text normalises to `''` exactly when it is missing or blank. */
  lemma NormalizeSearchEmptyIffBlank(t: Option<string>)
    ensures NormalizeSearch(t) == "" <==> t.None? || IsBlank(t.value)
  {
    if t.Some? {
      CollapseEmptyIffBlank(t.value);
    }
  }

  /** Normalising twice is normalising once. */
  lemma NormalizedIdempotent(s: GlobalSettings)
    ensures Normalized(Normalized(s)) == Normalized(s)
  {
    if s.search.Some? {
      CollapseKeepsWords(s.search.value);
    }
    assert Collapse("") == "";
  }

  /** `get_sorted_data` as line 84 builds its keys fails: the author search
      is on, the (normalised) search text is not empty, and there is a row to
      file. */
  predicate AuthorKeyRaises(rows: seq<Row>, searchAuthor: Option<bool>, search: string) {
    Truthy(searchAuthor) && search != "" && rows != []
  }

  /** The rows the search keeps: all of them for an empty search text,
      otherwise what `get_sorted_data` returns as written, which raises
      `TypeError` for an author search over any row. */
  function Filtered(rows: seq<Row>, n: GlobalSettings, o: Oracles): (r: Result<seq<Row>>)
    requires n.search.Some?
    ensures n.search.value == "" ==> r == Ok(rows)
    ensures AuthorKeyRaises(rows, n.searchAuthor, n.search.value) ==> r == Err(TypeError)
    ensures !AuthorKeyRaises(rows, n.searchAuthor, n.search.value) ==> r == Ok(FilteredByUsername(rows, n, o))
  {
    if n.search.value == "" then Ok(rows)
    else
      AsWrittenAgreesUnlessAuthorKey(n.search.value, rows, Truthy(n.hardRegister), Truthy(n.searchAuthor),
                                     Truthy(n.fuzzySearch), o.partialRatio);
      GetSortedDataAsWritten(n.search.value, rows, Truthy(n.hardRegister), Truthy(n.searchAuthor),
                             Truthy(n.fuzzySearch), o.partialRatio)
  }

  /** The filter with the author part of the key taken from the author's
      username, as the author search is meant to work. */
  function FilteredByUsername(rows: seq<Row>, n: GlobalSettings, o: Oracles): (r: seq<Row>)
    requires n.search.Some?
    ensures |r| <= |rows|
    ensures n.search.value == "" ==> r == rows
  {
    if n.search.value == "" then rows
    else GetSortedData(n.search.value, rows, Truthy(n.hardRegister), Truthy(n.searchAuthor),
                       Truthy(n.fuzzySearch), o.partialRatio)
  }

  /** The result list of a cache miss: normalise, filter when there is a
      search text, sort. An author search over any row raises `TypeError`
      before the sort; in every other case the list is the sort of the rows
      the username-keyed filter keeps. */
  function Fresh(rows: seq<Row>, s: GlobalSettings, o: Oracles): (r: Result<seq<Row>>)
    ensures r.Ok? ==> |r.value| <= |rows|
    ensures s.search.None? || IsBlank(s.search.value) ==> r == SortResult(rows, Normalized(s), o)
    ensures AuthorKeyRaises(rows, s.searchAuthor, NormalizeSearch(s.search)) ==> r == Err(TypeError)
    ensures !AuthorKeyRaises(rows, s.searchAuthor, NormalizeSearch(s.search))
         ==> r == SortResult(FilteredByUsername(rows, Normalized(s), o), Normalized(s), o)
  {
    var n := Normalized(s);
    NormalizeSearchEmptyIffBlank(s.search);
    var filtered :- Filtered(rows, n, o);
    SortResultLength(filtered, n, o);
    SortResult(filtered, n, o)
  }

  /** A sorted result is empty or as long as the data. */
  lemma SortResultLength(data: seq<Row>, s: GlobalSettings, o: Oracles)
    ensures SortResult(data, s, o).Ok? ==> SortResult(data, s, o).value == [] || |SortResult(data, s, o).value| == |data|
  {
    var r := SortResult(data, s, o);
    if r.Ok? && r.value != [] {
      assert |multiset(r.value)| == |multiset(data)|;
    }
  }

  /** What the endpoint returns, and the cache as it leaves it. */
  datatype Response = Response(page: seq<Row>, store: Store)

  /** `read_bestiary(...)` for the published rows `rows` at time `now`. A
      non-empty cached list is served as it is; a cached single row cannot be
      sliced; otherwise the result is computed, cached under the key of the
      normalised settings and sliced. */
  function ReadBestiary(store: Store, now: int, rows: seq<Row>, s: GlobalSettings, o: Oracles): (r: Result<Response>)
    ensures var c := GetCache(store, now, GlobalKey(s), "");
            c.Some? && c.value.ItemPayload? ==> r == Err(TypeError)
    ensures IsHit(store, now, s) ==> r == Ok(Response(Page(CachedRows(store, now, s), s), store))
    ensures IsMiss(store, now, s) && Fresh(rows, s, o).Err? ==> r == Err(Fresh(rows, s, o).error)
    ensures IsMiss(store, now, s) && AuthorKeyRaises(rows, s.searchAuthor, NormalizeSearch(s.search)) ==> r == Err(TypeError)
    ensures IsMiss(store, now, s) && Fresh(rows, s, o).Ok? ==>
              && r.Ok?
              && r.value.page == Page(Fresh(rows, s, o).value, s)
              && GetCache(r.value.store, now, GlobalKey(Normalized(s)), "") == Some(ListPayload(Fresh(rows, s, o).value))
  {
    match GetCache(store, now, GlobalKey(s), "")
    case Some(ItemPayload(_)) => Err(TypeError)
    case Some(ListPayload(cached)) =>
      if cached != [] then Ok(Response(Page(cached, s), store)) else Compute(store, now, rows, s, o)
    case None => Compute(store, now, rows, s, o)
  }

  /** Lines 157 and 158: cache the result list under the key of the
      normalised settings for the default lifetime, then slice it. */
  function StoreAndPage(store: Store, now: int, results: seq<Row>, s: GlobalSettings): (r: Response)
    ensures r.page == Page(results, s)
    ensures r.store == store[Address(GlobalKey(Normalized(s)), "") := Entry(ListPayload(results), now + DefaultTimer)]
  {
    var n := Normalized(s);
    var written := SetCache(store, now, GlobalKey(n), "", ListPayload(results));
    assert Page(results, n) == Page(results, s);
    Response(Page(results, n), written.value)
  }

  /** The cache miss path, lines 130 to 158. */
  function Compute(store: Store, now: int, rows: seq<Row>, s: GlobalSettings, o: Oracles): (r: Result<Response>)
    ensures Fresh(rows, s, o).Err? ==> r == Err(Fresh(rows, s, o).error)
    ensures Fresh(rows, s, o).Ok? ==>
              && r.Ok?
              && r.value.page == Page(Fresh(rows, s, o).value, s)
              && r.value.store == store[Address(GlobalKey(Normalized(s)), "") := Entry(ListPayload(Fresh(rows, s, o).value), now + DefaultTimer)]
              && GetCache(r.value.store, now, GlobalKey(Normalized(s)), "") == Some(ListPayload(Fresh(rows, s, o).value))
  {
    var results :- Fresh(rows, s, o);
    Ok(StoreAndPage(store, now, results, s))
  }

  /** The cache holds a non-empty list under the request's own key. */
  ghost predicate IsHit(store: Store, now: int, s: GlobalSettings) {
    var c := GetCache(store, now, GlobalKey(s), "");
    c.Some? && c.value.ListPayload? && c.value.rows != []
  }

  /** The cache holds nothing under the request's key, or an empty list. */
  ghost predicate IsMiss(store: Store, now: int, s: GlobalSettings) {
    var c := GetCache(store, now, GlobalKey(s), "");
    c.None? || (c.value.ListPayload? && c.value.rows == [])
  }

  function CachedRows(store: Store, now: int, s: GlobalSettings): seq<Row>
    requires IsHit(store, now, s)
  {
    GetCache(store, now, GlobalKey(s), "").value.rows
  }
  // ---------------------------------------------------------------------------
  // The cache against a fresh computation

  /** The sort type a pair of last characters names, among the sort types
      the table accepts: the missing one (rendered `None`) and the listed
      names, no two of which end alike. */
  function SortTypeOfEnd(a: char, b: char): Option<string> {
    if a == 't' && b == 'y' then Some("by_popularity")
    else if a == 'w' && b == 's' then Some("by_views")
    else if a == 'n' && b == 'g' then Some("by_rating")
    else if a == 'm' && b == 'e' then Some("by_name")
    else if a == 'o' && b == 'n' then Some("by_publication")
    else if a == 't' && b == 'e' then Some("by_last_update")
    else if a == 's' && b == 's' then Some("by_likeness")
    else None
  }

  /** An accepted sort type is read back from the last two characters of its
      rendering. */
  lemma SortTypeOfItsEnd(t: Option<string>)
    requires Dispatch(t).Some?
    ensures |Show(t)| >= 2
    ensures SortTypeOfEnd(Show(t)[|Show(t)| - 2], Show(t)[|Show(t)| - 1]) == t
  {
  }

  /** The key ends with the rendered sort type, so two settings whose sort
      types the table accepts share a key only if they share the sort type. */
  lemma GlobalKeySeparatesListedSortTypes(s1: GlobalSettings, s2: GlobalSettings)
    requires Dispatch(s1.sortType).Some? && Dispatch(s2.sortType).Some?
    requires GlobalKey(s1) == GlobalKey(s2)
    ensures s1.sortType == s2.sortType
  {
    ParseGlobalKey(s1);
    ParseGlobalKey(s2);
    SortTypeOfItsEnd(s1.sortType);
    SortTypeOfItsEnd(s2.sortType);
    var e1, e2 := Show(s1.sortType), Show(s2.sortType);
    var h1 := Show(s1.search) + "_" + e1;
    var h2 := Show(s2.search) + "_" + e2;
    assert h1 == h2;
    assert h1[|h1| - 1] == e1[|e1| - 1] && h1[|h1| - 2] == e1[|e1| - 2];
    assert h2[|h2| - 1] == e2[|e2| - 1] && h2[|h2| - 2] == e2[|e2| - 2];
  }

  /** A non-empty result list comes from a sort type the table accepts. */
  lemma NonEmptyFreshIsListed(rows: seq<Row>, s: GlobalSettings, o: Oracles)
    requires Fresh(rows, s, o).Ok? && Fresh(rows, s, o).value != []
    ensures Dispatch(s.sortType).Some?
  {
    FreshIsSortOfFiltered(rows, s, o);
  }

  /** A request whose own key is the key a computed result was cached under,
      with the same sort type or with both sort types listed in the table,
      normalises to the same search text, flags and direction, so it filters
      the rows alike. */
  lemma {:induction false} SameKeySameFilter(rows: seq<Row>, s1: GlobalSettings, s2: GlobalSettings, o: Oracles)
    requires s2.search.Some?
    requires s2.sortType == s1.sortType || (Dispatch(s1.sortType).Some? && Dispatch(s2.sortType).Some?)
    requires GlobalKey(s2) == GlobalKey(Normalized(s1))
    ensures s2.sortType == s1.sortType
    ensures Normalized(s2).search == Normalized(s1).search
    ensures Truthy(s2.reverse) == Truthy(s1.reverse)
    ensures Truthy(s2.hardRegister) == Truthy(s1.hardRegister)
    ensures Truthy(s2.fuzzySearch) == Truthy(s1.fuzzySearch)
    ensures Truthy(s2.searchAuthor) == Truthy(s1.searchAuthor)
    ensures Filtered(rows, Normalized(s2), o) == Filtered(rows, Normalized(s1), o)
  {
    var n1 := Normalized(s1);
    if s2.sortType != s1.sortType {
      GlobalKeySeparatesListedSortTypes(s2, n1);
    }
    GlobalKeyInjective(s2, n1);
    assert s2.search.value == NormalizeSearch(s1.search);
    if s1.search.Some? {
      CollapseKeepsWords(s1.search.value);
    }
    assert Collapse("") == "";
  }

  /** The result list of a request is the sort of its filtered rows, or the
      filter's error. */
  lemma FreshIsSortOfFiltered(rows: seq<Row>, s: GlobalSettings, o: Oracles)
    ensures Filtered(rows, Normalized(s), o).Err? ==> Fresh(rows, s, o) == Err(Filtered(rows, Normalized(s), o).error)
    ensures Filtered(rows, Normalized(s), o).Ok?
         ==> Fresh(rows, s, o) == SortResult(Filtered(rows, Normalized(s), o).value, Normalized(s), o)
  {
  }

  /** Sorting one list under two settings that agree on the search text, the
      sort type and the direction gives the same page at the second offset:
      either both lists are the same sort, or that offset lies beyond the
      list. */
  lemma SortResultAgrees(f: seq<Row>, n1: GlobalSettings, n2: GlobalSettings, o: Oracles, p: GlobalSettings)
    requires n1.search == n2.search && n1.sortType == n2.sortType && Truthy(n1.reverse) == Truthy(n2.reverse)
    requires p.shift == n2.shift && p.amountPerPage == n2.amountPerPage
    requires SortResult(f, n1, o).Ok? && SortResult(f, n1, o).value != []
    ensures SortResult(f, n2, o).Ok?
    ensures Page(SortResult(f, n2, o).value, p) == Page(SortResult(f, n1, o).value, p)
  {
    var l := SortResult(f, n1, o).value;
    var m := Dispatch(n1.sortType).value;
    assert |l| == |f| by {
      assert |multiset(l)| == |multiset(f)|;
    }
    if |f| > n2.shift {
      SortIgnoresOtherSettings(f, m, n1, n2, o, !Truthy(n1.reverse));
    }
  }

  /** A request with a search text and a sort type the table accepts, whose
      own key is the key a non-empty result was cached under, gets the same
      page from the cached list as from a fresh computation of its own. */
  lemma {:induction false} SameKeySamePage(rows: seq<Row>, s1: GlobalSettings, s2: GlobalSettings, o: Oracles)
    requires s2.search.Some? && Dispatch(s2.sortType).Some?
    requires GlobalKey(s2) == GlobalKey(Normalized(s1))
    requires Fresh(rows, s1, o).Ok? && Fresh(rows, s1, o).value != []
    ensures Fresh(rows, s2, o).Ok?
    ensures Page(Fresh(rows, s2, o).value, s2) == Page(Fresh(rows, s1, o).value, s2)
  {
    NonEmptyFreshIsListed(rows, s1, o);
    SameKeySameFilter(rows, s1, s2, o);
    FreshIsSortOfFiltered(rows, s1, o);
    FreshIsSortOfFiltered(rows, s2, o);
    SortResultAgrees(Filtered(rows, Normalized(s1), o).value, Normalized(s1), Normalized(s2), o, s2);
  }

  /** The cache is transparent for the lifetime of an entry: once a miss has
      computed and cached a non-empty result, every later request within the
      lifetime that reads that entry (its own key is the key written) and
      has a search text and a sort type the table accepts is served the page
      that a fresh computation over the same rows would give it, and the
      cache stays as it is. */
  lemma {:induction false} CacheIsTransparent(store: Store, t1: int, t2: int, rows: seq<Row>,
                                              s1: GlobalSettings, s2: GlobalSettings, o: Oracles)
    requires IsMiss(store, t1, s1)
    requires Fresh(rows, s1, o).Ok? && Fresh(rows, s1, o).value != []
    requires t1 <= t2 < t1 + DefaultTimer
    requires s2.search.Some? && Dispatch(s2.sortType).Some?
    requires GlobalKey(s2) == GlobalKey(Normalized(s1))
    ensures ReadBestiary(store, t1, rows, s1, o).Ok?
    ensures Fresh(rows, s2, o).Ok?
    ensures var written := ReadBestiary(store, t1, rows, s1, o).value.store;
            ReadBestiary(written, t2, rows, s2, o) == Ok(Response(Page(Fresh(rows, s2, o).value, s2), written))
  {
    ReaderOfEntryIsServedIt(store, t1, t2, rows, s1, s2, o);
    SameKeySamePage(rows, s1, s2, o);
  }

  /** With an empty search text every row is kept, so a sort type the table
      accepts and rows that reach the offset give a non-empty result. */
  lemma EmptySearchSortsAll(rows: seq<Row>, s: GlobalSettings, o: Oracles)
    requires s.search == Some("") && |rows| > s.shift && rows != [] && Dispatch(s.sortType).Some?
    ensures Fresh(rows, s, o).Ok? && Fresh(rows, s, o).value != []
  {
    NormalizeSearchEmptyIffBlank(s.search);
    assert Normalized(s) == s;
    SortedNonEmpty(rows, s, o);
  }

  /** Sorting rows that reach the offset under a listed sort type keeps them
      all. */
  lemma SortedNonEmpty(rows: seq<Row>, s: GlobalSettings, o: Oracles)
    requires |rows| > s.shift && rows != [] && Dispatch(s.sortType).Some?
    ensures SortResult(rows, s, o).Ok? && SortResult(rows, s, o).value != []
  {
    var l := SortResult(rows, s, o).value;
    assert |multiset(l)| == |multiset(rows)|;
  }

  /** A normalised request that is not an author search, whose filter keeps
      rows beyond its offset and whose sort type the table does not list,
      raises `KeyError`. */
  lemma UnlistedSortTypeRaises(rows: seq<Row>, s: GlobalSettings, o: Oracles)
    requires Normalized(s) == s && !Truthy(s.searchAuthor) && s.sortType.Some?
    requires |FilteredByUsername(rows, s, o)| > s.shift && FilteredByUsername(rows, s, o) != []
    requires Dispatch(s.sortType).None?
    ensures Fresh(rows, s, o) == Err(KeyError(s.sortType.value))
  {
  }

  /** Whatever its sort type, a request whose own key is the key a miss has
      just written is served a page of the cached list within the lifetime
      of the entry. */
  lemma ReaderOfEntryIsServedIt(store: Store, t1: int, t2: int, rows: seq<Row>,
                                s1: GlobalSettings, s2: GlobalSettings, o: Oracles)
    requires IsMiss(store, t1, s1)
    requires Fresh(rows, s1, o).Ok? && Fresh(rows, s1, o).value != []
    requires t1 <= t2 < t1 + DefaultTimer
    requires GlobalKey(s2) == GlobalKey(Normalized(s1))
    ensures ReadBestiary(store, t1, rows, s1, o).Ok?
    ensures var written := ReadBestiary(store, t1, rows, s1, o).value.store;
            ReadBestiary(written, t2, rows, s2, o) == Ok(Response(Page(Fresh(rows, s1, o).value, s2), written))
  {
    var l := Fresh(rows, s1, o).value;
    var written := ReadBestiary(store, t1, rows, s1, o).value.store;
    assert GetCache(written, t2, GlobalKey(s2), "") == Some(ListPayload(l));
  }

  /** `read_bestiary` with the sort type checked against the table before the
      cache is read, as a query parameter restricted to the listed names
      would be: an unlisted sort type is refused. */
  function ReadBestiaryValidated(store: Store, now: int, rows: seq<Row>, s: GlobalSettings, o: Oracles): Result<Response> {
    if Dispatch(s.sortType).None? then Err(ValueError) else ReadBestiary(store, now, rows, s, o)
  }

  /** With the sort type checked first, the cache is transparent for every
      request with a search text that reads a cached entry: it is refused
      when its sort type is unlisted, and otherwise served the page a fresh
      computation would give it. */
  lemma ValidatedCacheIsTransparent(store: Store, t1: int, t2: int, rows: seq<Row>,
                                    s1: GlobalSettings, s2: GlobalSettings, o: Oracles)
    requires IsMiss(store, t1, s1)
    requires Fresh(rows, s1, o).Ok? && Fresh(rows, s1, o).value != []
    requires t1 <= t2 < t1 + DefaultTimer
    requires s2.search.Some?
    requires GlobalKey(s2) == GlobalKey(Normalized(s1))
    ensures ReadBestiaryValidated(store, t1, rows, s1, o).Ok?
    ensures var written := ReadBestiaryValidated(store, t1, rows, s1, o).value.store;
            Dispatch(s2.sortType).None? ==> ReadBestiaryValidated(written, t2, rows, s2, o) == Err(ValueError)
    ensures Dispatch(s2.sortType).Some? ==> Fresh(rows, s2, o).Ok?
    ensures var written := ReadBestiaryValidated(store, t1, rows, s1, o).value.store;
            Dispatch(s2.sortType).Some? ==>
              ReadBestiaryValidated(written, t2, rows, s2, o) == Ok(Response(Page(Fresh(rows, s2, o).value, s2), written))
  {
    NonEmptyFreshIsListed(rows, s1, o);
    if Dispatch(s2.sortType).Some? {
      CacheIsTransparent(store, t1, t2, rows, s1, s2, o);
    }
  }

  /** A search text with extra whitespace is cached under the key of its
      collapsed form, which is not its own key, so such a request never reads
      the entry it writes. */
  lemma ExtraSpacesNeverHit(s: GlobalSettings)
    requires s.search.Some? && Collapse(s.search.value) != s.search.value
    ensures GlobalKey(s) != GlobalKey(Normalized(s))
  {
    if GlobalKey(s) == GlobalKey(Normalized(s)) {
      GlobalKeyInjective(s, Normalized(s));
    }
  }

  /** The key of the endpoint's default settings. */
  lemma DefaultsKey(s: GlobalSettings)
    requires s.search == Some("") && s.sortType == Some("by_likeness")
    requires s.searchAuthor == Some(false) && s.hardRegister == Some(false)
    requires s.fuzzySearch == Some(true) && s.reverse == Some(false)
    ensures GlobalKey(s) == "_by_likeness_0_0_1_0"
  {
    assert Bit(Some(false)) == "0" && Bit(Some(true)) == "1";
    assert Show(s.search) + "_" + Show(s.sortType) == "_by_likeness";
  }

  /** The settings of a request that passes only the two required query
      parameters: the endpoint defaults to an empty search text, the
      likeness order and fuzzy search. */
  function EndpointDefaults(shift: int, amountPerPage: int): GlobalSettings {
    GlobalSettings(shift, amountPerPage, Some(""), Some("by_likeness"), Some(false), Some(false), Some(true), Some(false))
  }

  /** The endpoint's defaults are already normalised, so their result is
      cached under the request's own key; they sort by likeness. */
  lemma EndpointDefaultsFacts(shift: int, amountPerPage: int)
    ensures GlobalKey(EndpointDefaults(shift, amountPerPage)) == "_by_likeness_0_0_1_0"
    ensures Normalized(EndpointDefaults(shift, amountPerPage)) == EndpointDefaults(shift, amountPerPage)
    ensures Dispatch(EndpointDefaults(shift, amountPerPage).sortType) == Some(Likeness)
  {
    var s := EndpointDefaults(shift, amountPerPage);
    DefaultsKey(s);
    assert Collapse("") == "";
  }
}

=== FILE: sort_models.dfy ===
/** The seven sort keys of app/api/sort_models.py. Each maps a row and the
    request settings to the rank the result list is sorted by. */
module SortModels {
  import opened Wrappers
  import opened Text
  import opened Models
  import opened Ranks

  /** `sort_by_popularity`: the stored rank plus a view-count bonus. */
  function ByPopularity(d: Row, s: GlobalSettings, o: Oracles): Rank {
    RealKey(d.rang + o.correction(d.countViews))
  }

  /** `sort_by_likeness`: the similarity of the name to the search text, with
      the popularity as a hundredth-weight tie breaker. */
  function ByLikeness(d: Row, s: GlobalSettings, o: Oracles): Rank {
    RealKey(o.ratio(d.name, s.search) as real + ByPopularity(d, s, o).x / 100.0)
  }

  /** `sort_by_views`. */
  function ByViews(d: Row, s: GlobalSettings, o: Oracles): Rank {
    IntKey(d.countViews)
  }

  /** `sort_by_rating`: the average rating plus a tenth of the view bonus. */
  function ByRating(d: Row, s: GlobalSettings, o: Oracles): Rank {
    RealKey(d.averageRating + o.correction(d.countViews) / 10.0)
  }

  /** `sort_by_name`: author name, then bestiary name, both lower-cased. */
  function ByName(d: Row, s: GlobalSettings, o: Oracles): Rank {
    StrKey(Lower(d.username) + " " + Lower(d.name))
  }

  /** `sort_by_publication`. */
  function ByPublication(d: Row, s: GlobalSettings, o: Oracles): Rank {
    TimeKey(d.dateCreation)
  }

  /** `sort_by_last_update`. */
  function ByLastUpdate(d: Row, s: GlobalSettings, o: Oracles): Rank {
    TimeKey(d.latestUpdate)
  }

  /** `correction_function(v) = sqrt(v) / (sqrt(v) + 20)` lies in `[0, 1)`
      for every view count `v >= 0`; the lemmas below that need this take it
      as a hypothesis about the supplied function. */
  ghost predicate CorrectionInUnitRange(o: Oracles) {
    forall v :: v >= 0 ==> 0.0 <= o.correction(v) < 1.0
  }

  /** The view bonus never outweighs a whole unit of `rang`: a row whose rank
      is at least one higher is more popular. */
  lemma PopularityFollowsRang(d1: Row, d2: Row, s: GlobalSettings, o: Oracles)
    requires CorrectionInUnitRange(o)
    requires d1.countViews >= 0 && d2.countViews >= 0
    requires d1.rang >= d2.rang + 1.0
    ensures RankLe(ByPopularity(d2, s, o), ByPopularity(d1, s, o))
    ensures ByPopularity(d1, s, o) != ByPopularity(d2, s, o)
  {
  }

  /** With equal view counts popularity orders rows exactly by `rang`. */
  lemma PopularityOfEqualViews(d1: Row, d2: Row, s: GlobalSettings, o: Oracles)
    requires d1.countViews == d2.countViews
    ensures RankLe(ByPopularity(d1, s, o), ByPopularity(d2, s, o)) <==> d1.rang <= d2.rang
  {
  }

  /** The view bonus of the rating is below a tenth of a star: a row rated at
      least a tenth higher ranks higher. */
  lemma RatingFollowsAverage(d1: Row, d2: Row, s: GlobalSettings, o: Oracles)
    requires CorrectionInUnitRange(o)
    requires d1.countViews >= 0 && d2.countViews >= 0
    requires d1.averageRating >= d2.averageRating + 0.1
    ensures RankLe(ByRating(d2, s, o), ByRating(d1, s, o))
    ensures ByRating(d1, s, o) != ByRating(d2, s, o)
  {
  }

  /** With equal view counts the rating orders rows exactly by their average
      rating. */
  lemma RatingOfEqualViews(d1: Row, d2: Row, s: GlobalSettings, o: Oracles)
    requires d1.countViews == d2.countViews
    ensures RankLe(ByRating(d1, s, o), ByRating(d2, s, o)) <==> d1.averageRating <= d2.averageRating
  {
  }

  /** Similarity decides the likeness order unless the popularities differ by
      a hundred or more: a strictly more similar name ranks strictly higher. */
  lemma LikenessFollowsSimilarity(d1: Row, d2: Row, s: GlobalSettings, o: Oracles)
    requires o.ratio(d1.name, s.search) > o.ratio(d2.name, s.search)
    requires ByPopularity(d2, s, o).x - ByPopularity(d1, s, o).x < 100.0
    ensures RankLe(ByLikeness(d2, s, o), ByLikeness(d1, s, o))
    ensures ByLikeness(d1, s, o) != ByLikeness(d2, s, o)
  {
  }

  /** Among equally similar names the likeness order is the popularity order. */
  lemma LikenessOfEqualSimilarity(d1: Row, d2: Row, s: GlobalSettings, o: Oracles)
    requires o.ratio(d1.name, s.search) == o.ratio(d2.name, s.search)
    ensures RankLe(ByLikeness(d1, s, o), ByLikeness(d2, s, o))
        <==> RankLe(ByPopularity(d1, s, o), ByPopularity(d2, s, o))
  {
  }

  /** The view, publication and update keys order rows by the raw column. */
  lemma ColumnOrders(d1: Row, d2: Row, s: GlobalSettings, o: Oracles)
    ensures RankLe(ByViews(d1, s, o), ByViews(d2, s, o)) <==> d1.countViews <= d2.countViews
    ensures RankLe(ByPublication(d1, s, o), ByPublication(d2, s, o)) <==> d1.dateCreation <= d2.dateCreation
    ensures RankLe(ByLastUpdate(d1, s, o), ByLastUpdate(d2, s, o)) <==> d1.latestUpdate <= d2.latestUpdate
  {
  }

  /** The name key ignores letter case: rows whose names differ only in case
      share a rank. */
  lemma NameIgnoresCase(d: Row, s: GlobalSettings, o: Oracles)
    ensures ByName(d.(username := Lower(d.username), name := Lower(d.name)), s, o) == ByName(d, s, o)
  {
    LowerIdempotent(d.username);
    LowerIdempotent(d.name);
  }

  /** Rows are ordered by author name first: two rows of one author compare
      as their lower-cased names do. */
  lemma {:induction false} NameOfSameAuthor(d1: Row, d2: Row, s: GlobalSettings, o: Oracles)
    requires d1.username == d2.username
    ensures RankLe(ByName(d1, s, o), ByName(d2, s, o)) <==> TextLe(Lower(d1.name), Lower(d2.name))
  {
    TextLeCommonPrefix(Lower(d1.username) + " ", Lower(d1.name), Lower(d2.name));
  }
}

=== FILE: stable_sort.dfy ===
/** Python's `list.sort(key=..., reverse=...)`: a stable sort by a rank key,
    ascending or descending. Rows with equal ranks keep their input order in
    both directions. */
module StableSort {
  import opened Ranks

  /** `a` may stand before `b` in the sorted output. */
  predicate Precedes(a: Rank, b: Rank, descending: bool) {
    if descending then RankLe(b, a) else RankLe(a, b)
  }

  lemma PrecedesTotal(a: Rank, b: Rank, descending: bool)
    ensures Precedes(a, b, descending) || Precedes(b, a, descending)
  {
    RankLeTotal(a, b);
  }

  lemma PrecedesTransitive(a: Rank, b: Rank, c: Rank, descending: bool)
    requires Precedes(a, b, descending) && Precedes(b, c, descending)
    ensures Precedes(a, c, descending)
  {
    if descending {
      RankLeTransitive(c, b, a);
    } else {
      RankLeTransitive(a, b, c);
    }
  }

  /** Every element may stand before every later one. */
  ghost predicate Ordered<T>(s: seq<T>, key: T -> Rank, descending: bool) {
    forall i, j :: 0 <= i < j < |s| ==> Precedes(key(s[i]), key(s[j]), descending)
  }

  /** The elements of `s` whose rank is `k`, in their order in `s`. */
  function WithRank<T>(s: seq<T>, key: T -> Rank, k: Rank): seq<T> {
    if s == [] then [] else (if key(s[0]) == k then [s[0]] else []) + WithRank(s[1..], key, k)
  }

  lemma WithRankConsAt<T>(x: T, s: seq<T>, key: T -> Rank, k: Rank)
    ensures WithRank([x] + s, key, k) == (if key(x) == k then [x] else []) + WithRank(s, key, k)
  {
    assert ([x] + s)[1..] == s;
  }

  lemma WithRankCons<T>(x: T, s: seq<T>, key: T -> Rank)
    ensures forall k :: WithRank([x] + s, key, k) == (if key(x) == k then [x] else []) + WithRank(s, key, k)
  {
    assert ([x] + s)[1..] == s;
  }

  /** `r` is what a stable sort of `s` by `key` returns: a permutation of `s`,
      ordered, and with the elements of every rank in their input order. */
  ghost predicate IsStableSortOf<T>(r: seq<T>, s: seq<T>, key: T -> Rank, descending: bool) {
    && multiset(r) == multiset(s)
    && Ordered(r, key, descending)
    && forall k :: WithRank(r, key, k) == WithRank(s, key, k)
  }

  /** Inserts `x` before the first element it may precede. */
  function Insert<T>(x: T, ys: seq<T>, key: T -> Rank, descending: bool): (r: seq<T>)
    ensures multiset(r) == multiset{x} + multiset(ys)
  {
    if ys == [] then
      [x]
    else if Precedes(key(x), key(ys[0]), descending) then
      [x] + ys
    else
      assert ys == [ys[0]] + ys[1..];
      [ys[0]] + Insert(x, ys[1..], key, descending)
  }

  /** `x` lands in front of every element of its own rank: an element that
      `x` may not precede has another rank. */
  lemma {:induction false} InsertWithRank<T>(x: T, ys: seq<T>, key: T -> Rank, descending: bool, k: Rank)
    ensures WithRank(Insert(x, ys, key, descending), key, k) == (if key(x) == k then [x] else []) + WithRank(ys, key, k)
    decreases |ys|
  {
    if ys == [] || Precedes(key(x), key(ys[0]), descending) {
      assert Insert(x, ys, key, descending) == [x] + ys;
      WithRankConsAt(x, ys, key, k);
    } else {
      var rest := Insert(x, ys[1..], key, descending);
      var hx := if key(x) == k then [x] else [];
      var hy := if key(ys[0]) == k then [ys[0]] else [];
      InsertWithRank(x, ys[1..], key, descending, k);
      assert Insert(x, ys, key, descending) == [ys[0]] + rest;
      WithRankConsAt(ys[0], rest, key, k);
      assert hx == [] || hy == [] by {
        RankLeReflexive(key(x));
      }
      SwapEmpty(hy, hx, WithRank(ys[1..], key, k));
    }
  }

  /** Of two lists at most one of which is non-empty, either may go first. */
  lemma SwapEmpty<T>(a: seq<T>, b: seq<T>, w: seq<T>)
    requires a == [] || b == []
    ensures a + (b + w) == b + (a + w)
  {
    if a == [] {
      assert a + (b + w) == b + w;
    } else {
      assert b + (a + w) == a + w;
    }
  }

  /** An element that may precede every element of an ordered list may
      stand in front of it. */
  lemma OrderedCons<T>(y: T, rest: seq<T>, key: T -> Rank, descending: bool)
    requires Ordered(rest, key, descending)
    requires forall j :: 0 <= j < |rest| ==> Precedes(key(y), key(rest[j]), descending)
    ensures Ordered([y] + rest, key, descending)
  {
    assert forall j :: 1 <= j < |[y] + rest| ==> ([y] + rest)[j] == rest[j - 1];
  }

  /** What may follow `y` in front of `x` and the elements of `tail` may
      follow it in front of any arrangement of them. */
  lemma PrecedesPermutation<T>(y: T, x: T, tail: seq<T>, rest: seq<T>, key: T -> Rank, descending: bool)
    requires multiset(rest) == multiset{x} + multiset(tail)
    requires Precedes(key(y), key(x), descending)
    requires forall q :: 0 <= q < |tail| ==> Precedes(key(y), key(tail[q]), descending)
    ensures forall j :: 0 <= j < |rest| ==> Precedes(key(y), key(rest[j]), descending)
  {
    forall j | 0 <= j < |rest|
      ensures Precedes(key(y), key(rest[j]), descending)
    {
      var z := rest[j];
      assert z in multiset(rest);
      if z != x {
        assert z in multiset(tail);
        var q :| 0 <= q < |tail| && tail[q] == z;
      }
    }
  }

  lemma {:induction false} InsertOrdered<T>(x: T, ys: seq<T>, key: T -> Rank, descending: bool)
    requires Ordered(ys, key, descending)
    ensures Ordered(Insert(x, ys, key, descending), key, descending)
    decreases |ys|
  {
    if ys == [] {
    } else if Precedes(key(x), key(ys[0]), descending) {
      forall j | 0 <= j < |ys|
        ensures Precedes(key(x), key(ys[j]), descending)
      {
        if j > 0 {
          PrecedesTransitive(key(x), key(ys[0]), key(ys[j]), descending);
        }
      }
      OrderedCons(x, ys, key, descending);
    } else {
      var tail := ys[1..];
      var rest := Insert(x, tail, key, descending);
      InsertOrdered(x, tail, key, descending);
      PrecedesTotal(key(x), key(ys[0]), descending);
      assert forall q :: 0 <= q < |tail| ==> tail[q] == ys[q + 1];
      PrecedesPermutation(ys[0], x, tail, rest, key, descending);
      OrderedCons(ys[0], rest, key, descending);
    }
  }

  /** `sorted(s, key=key, reverse=descending)`. */
  function Sort<T>(s: seq<T>, key: T -> Rank, descending: bool): (r: seq<T>)
    ensures IsStableSortOf(r, s, key, descending)
  {
    if s == [] then
      []
    else
      var rest := Sort(s[1..], key, descending);
      InsertOrdered(s[0], rest, key, descending);
      assert s == [s[0]] + s[1..];
      WithRankCons(s[0], s[1..], key);
      forall k
        ensures WithRank(Insert(s[0], rest, key, descending), key, k) == WithRank(s, key, k)
      {
        InsertWithRank(s[0], rest, key, descending, k);
      }
      Insert(s[0], rest, key, descending)
  }

  /** The sort reads the key only through its values. */
  lemma {:induction false} SortCongruence<T>(s: seq<T>, key1: T -> Rank, key2: T -> Rank, descending: bool)
    requires forall x :: key1(x) == key2(x)
    ensures Sort(s, key1, descending) == Sort(s, key2, descending)
    decreases |s|
  {
    if s != [] {
      SortCongruence(s[1..], key1, key2, descending);
      InsertCongruence(s[0], Sort(s[1..], key1, descending), key1, key2, descending);
    }
  }

  lemma {:induction false} InsertCongruence<T>(x: T, ys: seq<T>, key1: T -> Rank, key2: T -> Rank, descending: bool)
    requires forall x :: key1(x) == key2(x)
    ensures Insert(x, ys, key1, descending) == Insert(x, ys, key2, descending)
    decreases |ys|
  {
    if ys != [] {
      InsertCongruence(x, ys[1..], key1, key2, descending);
    }
  }

  lemma PrecedesAntisymmetric(a: Rank, b: Rank, descending: bool)
    requires Precedes(a, b, descending) && Precedes(b, a, descending)
    ensures a == b
  {
    RankLeAntisymmetric(a, b);
  }

  lemma {:induction false} WithRankMember<T>(s: seq<T>, key: T -> Rank, k: Rank, x: T)
    requires x in WithRank(s, key, k)
    ensures key(x) == k
    ensures exists i :: 0 <= i < |s| && s[i] == x
    decreases |s|
  {
    if s[0] != x || key(s[0]) != k {
      WithRankMember(s[1..], key, k, x);
      var i :| 0 <= i < |s[1..]| && s[1..][i] == x;
      assert s[i + 1] == x;
    }
  }

  /** The rank `key(s[0])` picks out the first element of `s`. */
  lemma WithRankHead<T>(s: seq<T>, key: T -> Rank)
    requires s != []
    ensures WithRank(s, key, key(s[0])) == [s[0]] + WithRank(s[1..], key, key(s[0]))
  {
  }

  /** Two ordered sequences that list the elements of every rank alike
      start with the same element. */
  lemma SameHead<T>(r1: seq<T>, r2: seq<T>, key: T -> Rank, descending: bool)
    requires r1 != [] && r2 != []
    requires Ordered(r1, key, descending) && Ordered(r2, key, descending)
    requires forall k :: WithRank(r1, key, k) == WithRank(r2, key, k)
    ensures r1[0] == r2[0]
  {
    var a, b := r1[0], r2[0];
    WithRankHead(r1, key);
    WithRankHead(r2, key);
    WithRankMember(r1, key, key(b), b);
    var j :| 0 <= j < |r1| && r1[j] == b;
    WithRankMember(r2, key, key(a), a);
    var i :| 0 <= i < |r2| && r2[i] == a;
    RankLeReflexive(key(a));
    RankLeReflexive(key(b));
    assert Precedes(key(a), key(b), descending);
    assert Precedes(key(b), key(a), descending);
    PrecedesAntisymmetric(key(a), key(b), descending);
  }

  /** Dropping a common head keeps the ranks listed alike. */
  lemma TailsAgree<T>(r1: seq<T>, r2: seq<T>, key: T -> Rank, k: Rank)
    requires r1 != [] && r2 != [] && r1[0] == r2[0]
    requires WithRank(r1, key, k) == WithRank(r2, key, k)
    ensures WithRank(r1[1..], key, k) == WithRank(r2[1..], key, k)
  {
    var a := r1[0];
    assert r1 == [a] + r1[1..];
    assert r2 == [a] + r2[1..];
    WithRankConsAt(a, r1[1..], key, k);
    WithRankConsAt(a, r2[1..], key, k);
    var p := if key(a) == k then [a] else [];
    assert WithRank(r1[1..], key, k) == (p + WithRank(r1[1..], key, k))[|p|..];
    assert WithRank(r2[1..], key, k) == (p + WithRank(r2[1..], key, k))[|p|..];
  }

  lemma OrderedTail<T>(r: seq<T>, key: T -> Rank, descending: bool)
    requires r != [] && Ordered(r, key, descending)
    ensures Ordered(r[1..], key, descending)
  {
    assert forall i :: 0 <= i < |r| - 1 ==> r[1..][i] == r[i + 1];
  }

  /** Two ordered sequences that list the elements of every rank alike are
      equal. */
  lemma {:induction false} OrderedByRankUnique<T>(r1: seq<T>, r2: seq<T>, key: T -> Rank, descending: bool)
    requires Ordered(r1, key, descending) && Ordered(r2, key, descending)
    requires forall k :: WithRank(r1, key, k) == WithRank(r2, key, k)
    ensures r1 == r2
    decreases |r1|
  {
    if r1 == [] && r2 != [] {
      WithRankHead(r2, key);
    } else if r1 != [] && r2 == [] {
      WithRankHead(r1, key);
    } else if r1 != [] {
      SameHead(r1, r2, key, descending);
      forall k
        ensures WithRank(r1[1..], key, k) == WithRank(r2[1..], key, k)
      {
        TailsAgree(r1, r2, key, k);
      }
      OrderedTail(r1, key, descending);
      OrderedTail(r2, key, descending);
      OrderedByRankUnique(r1[1..], r2[1..], key, descending);
      assert r1 == [r1[0]] + r1[1..];
      assert r2 == [r2[0]] + r2[1..];
    }
  }

  /** A stable sort has exactly one possible result: any sequence meeting
      the description `IsStableSortOf` is the result of `Sort`. */
  lemma StableSortUnique<T>(r: seq<T>, s: seq<T>, key: T -> Rank, descending: bool)
    requires IsStableSortOf(r, s, key, descending)
    ensures r == Sort(s, key, descending)
  {
    OrderedByRankUnique(r, Sort(s, key, descending), key, descending);
  }
}

=== FILE: text.dfy ===
/** The string primitives of Python that the search core relies on:
    `str.isspace`, `str.split()`, `' '.join`, `str.lower`, literal substring
    search and the ordering of `str` values. */
module Text {

  /** Python's `str.isspace()`: the characters `str.split()` and `int()` treat
      as whitespace. */
  predicate IsSpace(c: char) {
    || c == ' '
    || '\U{9}' <= c <= '\U{D}'
    || '\U{1C}' <= c <= '\U{1F}'
    || c == '\U{85}' || c == '\U{A0}' || c == '\U{1680}'
    || '\U{2000}' <= c <= '\U{200A}'
    || c == '\U{2028}' || c == '\U{2029}' || c == '\U{202F}' || c == '\U{205F}'
    || c == '\U{3000}'
  }

  /** The text is empty or all whitespace. */
  predicate IsBlank(s: string) {
    forall i :: 0 <= i < |s| ==> IsSpace(s[i])
  }

  /** The upper-case letters the case fold knows: Latin A-Z and the Cyrillic
      capitals U+0400..U+042F. */
  predicate IsUpper(c: char) {
    'A' <= c <= 'Z' || '\U{400}' <= c <= '\U{42F}'
  }

  function LowerChar(c: char): (d: char)
    ensures !IsUpper(d)
    ensures !IsUpper(c) ==> d == c
    ensures IsSpace(d) == IsSpace(c)
  {
    if 'A' <= c <= 'Z' then (c as int + 0x20) as char
    else if '\U{410}' <= c <= '\U{42F}' then (c as int + 0x20) as char
    else if '\U{400}' <= c <= '\U{40F}' then (c as int + 0x50) as char
    else c
  }

  /** `str.lower()`: no upper-case letter survives, every other character
      is kept as it is. */
  function Lower(s: string): (r: string)
    ensures |r| == |s|
    ensures forall i :: 0 <= i < |r| ==> !IsUpper(r[i]) && IsSpace(r[i]) == IsSpace(s[i])
    ensures forall i :: 0 <= i < |r| && !IsUpper(s[i]) ==> r[i] == s[i]
  {
    seq(|s|, i requires 0 <= i < |s| => LowerChar(s[i]))
  }

  /** Folding twice is folding once. */
  lemma LowerIdempotent(s: string)
    ensures Lower(Lower(s)) == Lower(s)
  {
  }

  // ---------------------------------------------------------------------------
  // str.split() and ' '.join(...)

  /** A word produced by `str.split()`: non-empty and free of whitespace. */
  predicate IsWord(w: string) {
    |w| > 0 && forall i :: 0 <= i < |w| ==> !IsSpace(w[i])
  }

  function TrimStart(s: string): (r: string)
    ensures |r| <= |s| && r == s[|s| - |r|..]
    ensures r == [] || !IsSpace(r[0])
    ensures forall i :: 0 <= i < |s| - |r| ==> IsSpace(s[i])
  {
    if s == [] || !IsSpace(s[0]) then s else TrimStart(s[1..])
  }

  function TrimEnd(s: string): (r: string)
    ensures |r| <= |s| && r == s[..|r|]
    ensures r == [] || !IsSpace(r[|r| - 1])
    ensures forall i :: |r| <= i < |s| ==> IsSpace(s[i])
  {
    if s == [] || !IsSpace(s[|s| - 1]) then s else TrimEnd(s[..|s| - 1])
  }

  /** Length of the run of non-whitespace characters that starts `s`. */
  function WordLength(s: string): (n: nat)
    ensures n <= |s|
    ensures forall i :: 0 <= i < n ==> !IsSpace(s[i])
    ensures n < |s| ==> IsSpace(s[n])
  {
    if s == [] || IsSpace(s[0]) then 0 else 1 + WordLength(s[1..])
  }

  /** `s.split()`: the maximal whitespace-free runs of `s`, in order. */
  function Words(s: string): (ws: seq<string>)
    ensures forall w :: w in ws ==> IsWord(w)
    decreases |s|
  {
    var t := TrimStart(s);
    if t == [] then []
    else
      var n := WordLength(t);
      var w := t[..n];
      assert IsWord(w);
      var rest := Words(t[n..]);
      [w] + rest
  }

  /** `sep.join(ws)`. */
  function Join(ws: seq<string>, sep: string): string {
    if ws == [] then ""
    else if |ws| == 1 then ws[0]
    else ws[0] + sep + Join(ws[1..], sep)
  }

  /** `' '.join(s.split())`: runs of whitespace collapsed to one space,
      leading and trailing whitespace removed. */
  function Collapse(s: string): string {
    Join(Words(s), " ")
  }

  /** All characters of `s` except its whitespace, in order. */
  function NonSpace(s: string): string {
    if s == [] then []
    else (if IsSpace(s[0]) then [] else [s[0]]) + NonSpace(s[1..])
  }

  /** Concatenation of a list of strings. */
  function Concat(ws: seq<string>): string {
    if ws == [] then [] else ws[0] + Concat(ws[1..])
  }

  lemma {:induction false} NonSpaceAppend(a: string, b: string)
    ensures NonSpace(a + b) == NonSpace(a) + NonSpace(b)
    decreases |a|
  {
    if a == [] {
      assert a + b == b;
    } else {
      assert (a + b)[1..] == a[1..] + b;
      NonSpaceAppend(a[1..], b);
    }
  }

  lemma {:induction false} NonSpaceOfWord(w: string)
    requires forall i :: 0 <= i < |w| ==> !IsSpace(w[i])
    ensures NonSpace(w) == w
    decreases |w|
  {
    if w != [] {
      NonSpaceOfWord(w[1..]);
    }
  }

  /** One step of `Words`: the first word is the leading run of the text
      after its leading whitespace. */
  lemma WordsStep(s: string)
    ensures TrimStart(s) == [] ==> Words(s) == []
    ensures TrimStart(s) != [] ==>
              var t := TrimStart(s);
              Words(s) == [t[..WordLength(t)]] + Words(t[WordLength(t)..])
  {
  }

  lemma ConcatCons(w: string, ws: seq<string>)
    ensures Concat([w] + ws) == w + Concat(ws)
  {
    assert ([w] + ws)[1..] == ws;
  }

  /** Leading whitespace contributes nothing to `NonSpace`. */
  lemma {:induction false} NonSpaceOfTrimmed(s: string)
    ensures NonSpace(TrimStart(s)) == NonSpace(s)
    decreases |s|
  {
    if s != [] && IsSpace(s[0]) {
      NonSpaceOfTrimmed(s[1..]);
    }
  }

  /** The leading run of a text passes through `NonSpace` unchanged. */
  lemma NonSpaceOfLeadingWord(t: string)
    ensures NonSpace(t) == t[..WordLength(t)] + NonSpace(t[WordLength(t)..])
  {
    var n := WordLength(t);
    assert t == t[..n] + t[n..];
    NonSpaceAppend(t[..n], t[n..]);
    NonSpaceOfWord(t[..n]);
  }

  /** The words of `s`, put back together, are exactly the non-whitespace
      characters of `s`: splitting drops whitespace and nothing else. */
  lemma {:induction false} WordsCoverText(s: string)
    ensures Concat(Words(s)) == NonSpace(s)
    decreases |s|
  {
    var t := TrimStart(s);
    WordsStep(s);
    NonSpaceOfTrimmed(s);
    if t != [] {
      var n := WordLength(t);
      WordsCoverText(t[n..]);
      ConcatCons(t[..n], Words(t[n..]));
      NonSpaceOfLeadingWord(t);
    }
  }

  /** Words are exactly the non-whitespace runs: `s.split()` is empty iff
      `s` is all whitespace. */
  lemma WordsEmptyIffBlank(s: string)
    ensures Words(s) == [] <==> IsBlank(s)
  {
    var t := TrimStart(s);
    if t != [] {
      assert !IsSpace(s[|s| - |t|]);
    }
  }

  lemma {:induction false} WordLengthOfWordThenSpace(w: string, rest: string)
    requires forall i :: 0 <= i < |w| ==> !IsSpace(w[i])
    requires rest == [] || IsSpace(rest[0])
    ensures WordLength(w + rest) == |w|
    decreases |w|
  {
    if w == [] {
      assert w + rest == rest;
    } else {
      assert (w + rest)[1..] == w[1..] + rest;
      WordLengthOfWordThenSpace(w[1..], rest);
    }
  }

  lemma WordsSkipsLeadingSpace(s: string)
    ensures Words(" " + s) == Words(s)
  {
    assert (" " + s)[1..] == s;
  }

  lemma {:induction false} JoinNonEmpty(ws: seq<string>, sep: string)
    requires ws != [] && IsWord(ws[0])
    ensures |Join(ws, sep)| > 0 && Join(ws, sep)[0] == ws[0][0]
  {
  }

  /** A word followed by whitespace (or nothing) splits off as the first word. */
  lemma WordsOfWordThenRest(w: string, rest: string)
    requires IsWord(w)
    requires rest == [] || IsSpace(rest[0])
    ensures Words(w + rest) == [w] + Words(rest)
  {
    var j := w + rest;
    assert j[0] == w[0];
    assert TrimStart(j) == j;
    WordLengthOfWordThenSpace(w, rest);
    assert j[..|w|] == w;
    assert j[|w|..] == rest;
  }

  lemma WordsOfJoinSingle(ws: seq<string>)
    requires |ws| == 1 && IsWord(ws[0])
    ensures Words(Join(ws, " ")) == ws
  {
    var w := ws[0];
    assert Join(ws, " ") == w;
    assert TrimStart(w) == w;
    WordLengthOfWordThenSpace(w, "");
    assert w + "" == w;
    assert w[..|w|] == w;
    assert w[|w|..] == "";
  }

  lemma JoinCons(ws: seq<string>)
    requires |ws| >= 2
    ensures Join(ws, " ") == ws[0] + (" " + Join(ws[1..], " "))
  {
  }

  lemma WordsOfJoinCons(ws: seq<string>)
    requires |ws| >= 2 && IsWord(ws[0])
    requires Words(Join(ws[1..], " ")) == ws[1..]
    ensures Words(Join(ws, " ")) == ws
  {
    var w := ws[0];
    var tail := Join(ws[1..], " ");
    JoinCons(ws);
    WordsOfWordThenRest(w, " " + tail);
    WordsSkipsLeadingSpace(tail);
    assert ws == [w] + ws[1..];
  }

  /** Splitting a single-space join of words gives the words back. */
  lemma {:induction false} WordsOfJoin(ws: seq<string>)
    requires forall w :: w in ws ==> IsWord(w)
    ensures Words(Join(ws, " ")) == ws
    decreases |ws|
  {
    if ws == [] {
      assert Join(ws, " ") == "";
    } else {
      assert ws[0] in ws;
      if |ws| == 1 {
        WordsOfJoinSingle(ws);
      } else {
        WordsOfJoin(ws[1..]);
        WordsOfJoinCons(ws);
      }
    }
  }

  /** Collapsing whitespace keeps the words and is idempotent. */
  lemma CollapseKeepsWords(s: string)
    ensures Words(Collapse(s)) == Words(s)
    ensures Collapse(Collapse(s)) == Collapse(s)
  {
    WordsOfJoin(Words(s));
  }

  /** The collapsed text is empty exactly when the text was all whitespace. */
  lemma CollapseEmptyIffBlank(s: string)
    ensures Collapse(s) == "" <==> IsBlank(s)
  {
    WordsEmptyIffBlank(s);
    var ws := Words(s);
    if ws != [] {
      JoinNonEmpty(ws, " ");
    }
  }

  // ---------------------------------------------------------------------------
  // Literal substring search

  /** `w` occurs in `s` as a contiguous block. */
  ghost predicate IsSubstring(w: string, s: string) {
    exists i :: OccursAt(w, s, i)
  }

  /** `w` occurs in `s` starting at index `i`. */
  predicate OccursAt(w: string, s: string, i: int) {
    0 <= i <= |s| - |w| && s[i..i + |w|] == w
  }

  /** `re.search(re.escape(w), s)` is truthy: a left-to-right scan for the
      literal text `w`. */
  function Contains(s: string, w: string): bool
    decreases |s|
  {
    if |w| > |s| then false
    else if s[..|w|] == w then true
    else Contains(s[1..], w)
  }

  lemma {:induction false} ContainsIsSubstring(s: string, w: string)
    ensures Contains(s, w) <==> IsSubstring(w, s)
    decreases |s|
  {
    if |w| > |s| {
    } else if s[..|w|] == w {
      assert OccursAt(w, s, 0);
    } else {
      ContainsIsSubstring(s[1..], w);
      if IsSubstring(w, s) {
        var i :| OccursAt(w, s, i);
        assert i != 0;
        assert s[1..][i - 1..i - 1 + |w|] == w;
        assert OccursAt(w, s[1..], i - 1);
      }
      if IsSubstring(w, s[1..]) {
        var i :| OccursAt(w, s[1..], i);
        assert s[i + 1..i + 1 + |w|] == w;
        assert OccursAt(w, s, i + 1);
      }
    }
  }

  // ---------------------------------------------------------------------------
  // Ordering of str values

  /** Python's `a <= b` on `str`: lexicographic by code point, a proper prefix
      first. */
  predicate TextLe(a: string, b: string) {
    if a == [] then true
    else if b == [] then false
    else if a[0] != b[0] then a[0] < b[0]
    else TextLe(a[1..], b[1..])
  }

  lemma {:induction false} TextLeTotal(a: string, b: string)
    ensures TextLe(a, b) || TextLe(b, a)
    decreases |a|
  {
    if a != [] && b != [] && a[0] == b[0] {
      TextLeTotal(a[1..], b[1..]);
    }
  }

  lemma {:induction false} TextLeAntisymmetric(a: string, b: string)
    requires TextLe(a, b) && TextLe(b, a)
    ensures a == b
    decreases |a|
  {
    if a != [] {
      TextLeAntisymmetric(a[1..], b[1..]);
      assert a == [a[0]] + a[1..];
      assert b == [b[0]] + b[1..];
    }
  }

  lemma {:induction false} TextLeTransitive(a: string, b: string, c: string)
    requires TextLe(a, b) && TextLe(b, c)
    ensures TextLe(a, c)
    decreases |a|
  {
    if a != [] && a[0] == b[0] && b[0] == c[0] {
      TextLeTransitive(a[1..], b[1..], c[1..]);
    }
  }

  /** A common prefix does not change the order of two texts. */
  lemma {:induction false} TextLeCommonPrefix(p: string, a: string, b: string)
    ensures TextLe(p + a, p + b) <==> TextLe(a, b)
    decreases |p|
  {
    if p != [] {
      assert (p + a)[1..] == p[1..] + a;
      assert (p + b)[1..] == p[1..] + b;
      TextLeCommonPrefix(p[1..], a, b);
    } else {
      assert p + a == a && p + b == b;
    }
  }
}

=== FILE: wrappers.dfy ===
/** Failure-compatible wrappers shared by the whole model, and the Python
    exceptions that the modelled code can raise. */
module Wrappers {

  /** Python's `Optional[T]`: `None` or a value. */
  datatype Option<+T> = None | Some(value: T)

  /** The exceptions the search service's core can raise. */
  datatype Exception =
    | KeyError(key: string)   // a dictionary lookup of a missing key
    | TypeError               // an operation applied to a value of the wrong type
    | ValueError              // `int(...)` of a text that is not an integer literal
    | ResponseError           // an error reply of the Redis server

  /** Either a value or the exception raised while computing it. */
  datatype Result<+T> = Ok(value: T) | Err(error: Exception) {

    predicate IsFailure() {
      Err?
    }

    function PropagateFailure<U>(): Result<U>
      requires Err?
    {
      Err(error)
    }

    function Extract(): T
      requires Ok?
    {
      value
    }
  }
}
